=== FILE: README.md ===
# Build 2016 Bluetooth samples: a Dafny model of their logic

This project models the logic of the Build 2016 Bluetooth code samples, without their platform calls.

- **Core: the RFCOMM message protocol.** The sensor app (AvatarSensor) sends activity names to the avatar app (BtAvatar) as frames. A frame is a 4-byte unsigned length prefix followed by the UTF-8 text. The avatar reads frames in a loop until a read comes back short, and dispatches each message to its video player.
- **Around the core:**
  - the SDP ServiceName attribute the avatar publishes;
  - the two click-counter toggles;
  - the device lists both watcher pages keep;
  - the pairing and motor button rules of the in-app GATT page;
  - the 4-byte LEGO motor-power command;
  - the decision the background advertisement task takes;
  - the beacon page's background-task registration state machine.

Platform objects become inputs. Examples are the bytes a peer sent, a watcher's status, the selected device, an HResult and a BackgroundAccessStatus.

Modules:

| module | holds |
|---|---|
| `Base` | `Option`, bytes, big-endian uint32, two's-complement int8, C# `int` increment and `%`, decimal text |
| `Utf8` | UTF-8 encoding and decoding (RFC 3629); C#'s UTF-16 `String.Length` |
| `Framing` | the frame encoder and the read loop |
| `DeviceList` | first-match-by-Id list operations |
| `Sensor` | the sensor page |
| `Sdp` | the ServiceName attribute (Bluetooth Core Specification, Volume 3, Part B, sections 3.2 and 3.3) |
| `Avatar` | the avatar page |
| `LegoMotor` | the motor command |
| `InAppGatt` | the in-app GATT page |
| `AdvertisementTask` | the background task |
| `BeaconProximity` | the beacon page |

Four behaviours of the code shape the model:

- **Length prefix.** The sender writes `message.Length`, the UTF-16 code-unit count, as the prefix, while the payload is UTF-8 and the receiver reads the prefix as a byte count. This is logged under Findings. `Sensor.SendMessage` writes the prefix as the code does. The receiver's properties (`Framing.RoundTrip`, `Avatar.ServeFrames`) are stated over frames whose prefix is the byte count. For the ASCII activity names the sensor sends, the two frames are identical.
- **Undecodable payload.** `ReadString` throws. The model takes the catch block to show a status and the loop to go round again at the next frame, as if the failed read had used up the payload's bytes. That catch block writes `Status.Text` directly, while every other status write in the handler goes through `Dispatcher.RunAsync`. Whether that direct write succeeds is not modelled (see `Avatar.Handle` under Left out).
- **Short read.** It ends the loop through `break`, after setting `remoteDisconnection`. Because the flag is set only right before leaving, the catch block always prints `False`.
- **No size limit.** The receiver accepts any 32-bit length. Nothing caps the size of a frame, and there is no error for a large one.

## Model

| member | source | states |
|---|---|---|
| Base.Uint32ToBytes | BuildQuickStart/BtSensor/AvatarSensor/MainPage.xaml.cs:231 | the four bytes `WriteUInt32` stores read back, big-endian, as the same unsigned value |
| Base.Uint32BytesRoundTrip | BuildQuickStart/BtAvatar/BtAvatar/BtAvatar/MainPage.xaml.cs:176 | any four bytes `ReadUInt32` reads come from encoding the value it returns |
| Base.AsInt8 | BuildInAppGATT/BluetoothInAppGATT/cs/Scenario1_InAppGATT.xaml.cs:367 | a byte read as a signed int8 is in -128..127 and stores back as the same byte |
| Base.Int32Increment | BuildQuickStart/BtSensor/AvatarSensor/MainPage.xaml.cs:265 | `clickNum += 1` stays a 32-bit int and agrees with x + 1 modulo 2^32 |
| Base.Int32IncrementSteps | BuildQuickStart/BtAvatar/BtAvatar/BtAvatar/MainPage.xaml.cs:302 | the increment is x + 1 below int.MaxValue and wraps int.MaxValue to int.MinValue |
| Base.CsRemainder | BuildQuickStart/BtSensor/AvatarSensor/MainPage.xaml.cs:248 | C#'s `%` stays strictly inside (-b, b), takes the sign of the dividend, and is the ordinary remainder for a non-negative dividend |
| Base.NatToString | BuildQuickStart/BtAvatar/BtAvatar/BtAvatar/MainPage.xaml.cs:212 | a number's decimal text is non-empty digits, with no leading zero, whose value is the number |
| Utf8.Utf16Length | BuildQuickStart/BtSensor/AvatarSensor/MainPage.xaml.cs:231 | `message.Length` lies between the character count and twice it, and equals it for ASCII |
| Utf8.Utf16BelowUtf8 | BuildQuickStart/BtSensor/AvatarSensor/MainPage.xaml.cs:231-232 | `message.Length` never exceeds the UTF-8 byte count, and equals it exactly when the text is ASCII |
| Utf8.Encode | BuildQuickStart/BtSensor/AvatarSensor/MainPage.xaml.cs:232 | `WriteString`'s UTF-8 takes 1 to 4 bytes per character, exactly 1 for ASCII |
| Utf8.Decode | BuildQuickStart/BtAvatar/BtAvatar/BtAvatar/MainPage.xaml.cs:187 | the text `ReadString` returns encodes back to exactly the bytes it read |
| Utf8.DecodeEncode | BuildQuickStart/BtAvatar/BtAvatar/BtAvatar/MainPage.xaml.cs:187 | reading the UTF-8 of any text gives that text back |
| Framing.EncodeAsWritten | BuildQuickStart/BtSensor/AvatarSensor/MainPage.xaml.cs:229-235 | the frame as written is the UTF-16 length in 4 bytes, then the UTF-8 payload |
| Framing.Encode | BuildQuickStart/BtSensor/AvatarSensor/MainPage.xaml.cs:231-232 | the corrected frame is the payload's UTF-8 byte count in 4 bytes, then the UTF-8 payload |
| Framing.AsWrittenAgreesOnAscii | BuildQuickStart/BtSensor/AvatarSensor/MainPage.xaml.cs:231-232 | for ASCII messages the frame as written is the corrected frame |
| Framing.ReadFrame | BuildQuickStart/BtAvatar/BtAvatar/BtAvatar/MainPage.xaml.cs:168-186 | a read is short exactly when fewer than 4 bytes, or fewer bytes than the prefix says, remain; otherwise the input is prefix, payload, rest |
| Framing.ReadString | BuildQuickStart/BtAvatar/BtAvatar/BtAvatar/MainPage.xaml.cs:187 | a payload that is valid UTF-8 is handed on as the text it encodes; only an undecodable payload is caught |
| Framing.ReadLoop | BuildQuickStart/BtAvatar/BtAvatar/BtAvatar/MainPage.xaml.cs:163-222 | the loop hands on at most one item per 4 input bytes, so it always ends |
| Framing.CaughtFrameContinues | BuildQuickStart/BtAvatar/BtAvatar/BtAvatar/MainPage.xaml.cs:187-221 | a whole frame whose payload is not UTF-8 yields one caught item, and the loop goes on with the frames after it |
| Framing.ReadFrameEncode | BuildQuickStart/BtAvatar/BtAvatar/BtAvatar/MainPage.xaml.cs:168-187 | a frame is read back as exactly its payload and consumes 4 + length bytes, leaving what follows untouched |
| Framing.ReadLoopEncodeAll | BuildQuickStart/BtAvatar/BtAvatar/BtAvatar/MainPage.xaml.cs:163-222 | back-to-back frames decode to their messages in order, and the bytes after them are read as if alone |
| Framing.RoundTrip | BuildQuickStart/BtAvatar/BtAvatar/BtAvatar/MainPage.xaml.cs:163-187 | the receiver's messages are exactly the sender's messages, in order |
| Framing.TruncatedFrameDeliversNothing | BuildQuickStart/BtAvatar/BtAvatar/BtAvatar/MainPage.xaml.cs:179-186 | any strict prefix of a frame is a short read that delivers no partial message |
| Framing.DroppedConnection | BuildQuickStart/BtAvatar/BtAvatar/BtAvatar/MainPage.xaml.cs:168-186 | a connection cut inside a frame delivers exactly the whole frames before the cut |
| Framing.ZeroLengthFrame | BuildQuickStart/BtAvatar/BtAvatar/BtAvatar/MainPage.xaml.cs:176-187 | a zero prefix passes the length check, yields the empty message and consumes 4 bytes |
| Framing.AsWrittenMisframes | BuildQuickStart/BtSensor/AvatarSensor/MainPage.xaml.cs:231-232 | whenever UTF-16 length and UTF-8 byte count differ, the frame as written is not read back as the message's bytes |
| Framing.AsWrittenLosesMessages | BuildQuickStart/BtSensor/AvatarSensor/MainPage.xaml.cs:231-232 | sending "é" then "Walking" as written delivers neither message, only one caught exception |
| DeviceList.FirstIndex | BuildQuickStart/BtSensor/AvatarSensor/MainPage.xaml.cs:74-81 | the `foreach`/`break` lookup finds the first entry with the Id, or reports that none has it |
| DeviceList.RemoveFirst | BuildQuickStart/BtSensor/AvatarSensor/MainPage.xaml.cs:95-102 | Removed deletes the first entry with the Id and keeps all others in order; without a match the list is unchanged |
| DeviceList.UpdateFirst | BuildQuickStart/BtSensor/AvatarSensor/MainPage.xaml.cs:74-81 | Updated changes only the first entry with the Id, applying the update to it, and no entry's Id |
| DeviceList.RemoveFirstCount | BuildQuickStart/BtSensor/AvatarSensor/MainPage.xaml.cs:95-102 | one Removed event takes away exactly one entry with the Id when there is one |
| Sensor.SendMessage | BuildQuickStart/BtSensor/AvatarSensor/MainPage.xaml.cs:225-243 | an empty message writes nothing; otherwise one flush of the frame as written, UTF-16 length then UTF-8 bytes; the receiver reads it as that message when the message is ASCII and misreads it otherwise; with no writer, an error status |
| Sensor.AsWrittenFrameRead | BuildQuickStart/BtSensor/AvatarSensor/MainPage.xaml.cs:231-232 | a lone frame as written reads back as its message for ASCII text, and is misread for any other text |
| Sensor.ToggleMessage | BuildQuickStart/BtSensor/AvatarSensor/MainPage.xaml.cs:248-262 | from a non-negative counter the toggle sends Walking, Running, Stationary by counter mod 3; any multiple of 3, negative ones after the wrap included, sends Walking; "Car" exactly for negative non-multiples of 3 |
| Sensor.MessageToggleClick | BuildQuickStart/BtSensor/AvatarSensor/MainPage.xaml.cs:246-266 | every click sends one non-empty message as exactly one frame, and the counter rises by 1 below int.MaxValue |
| Sensor.TogglePeriod | BuildQuickStart/BtSensor/AvatarSensor/MainPage.xaml.cs:248-265 | counting from zero the messages repeat with period 3 and never reach "Car" |
| Sensor.ToggleSendsCarAfterWrap | BuildQuickStart/BtSensor/AvatarSensor/MainPage.xaml.cs:259-265 | the click made at counter int.MaxValue wraps it to int.MinValue; the next click sends "Car" |
| Sensor.OnWatcherEvent | BuildQuickStart/BtSensor/AvatarSensor/MainPage.xaml.cs:55-116 | Added appends exactly the named devices; Removed and Updated act on the first match; Stopped empties the list and re-enables Run |
| Sensor.NamedEntriesStayNamed | BuildQuickStart/BtSensor/AvatarSensor/MainPage.xaml.cs:59-65 | without updates, every listed device has a name |
| Sensor.Connect | BuildQuickStart/BtSensor/AvatarSensor/MainPage.xaml.cs:121-171 | with no service it reports and stops before the watcher; otherwise it uses `Services[0]`, and a failure is "server not running" iff HResult 0x80070490, else rethrown |
| Sensor.ConnectUsesFirstService | BuildQuickStart/BtSensor/AvatarSensor/MainPage.xaml.cs:131-134 | services after the first never change the outcome, and a connection uses the first |
| Sdp.ServiceNameAttribute | BuildQuickStart/BtAvatar/BtAvatar/BtAvatar/MainPage.xaml.cs:106-122 | the record starts with a header whose type is 4 (text) and size index 5 (8-bit length), then a length byte, then the UTF-8 name |
| Sdp.ServiceNameRoundTrip | BuildQuickStart/BtAvatar/BtAvatar/BtAvatar/MainPage.xaml.cs:111-118 | for ASCII names under 256 characters the length byte is the payload byte count and a reader gets the name back |
| Sdp.ServiceNameMisframed | BuildQuickStart/BtAvatar/BtAvatar/BtAvatar/MainPage.xaml.cs:111-118 | when the UTF-16 length modulo 256 differs from the UTF-8 byte count, a reader rejects the record |
| Sdp.ServiceNameIsAscii | BuildQuickStart/BtAvatar/BtAvatar/BtAvatar/MainPage.xaml.cs:41 | "Sensor Avatar Service" is 21 ASCII characters |
| Sdp.InitializeServiceSdpAttributes | BuildQuickStart/BtAvatar/BtAvatar/BtAvatar/MainPage.xaml.cs:106-122 | the record filed under 0x0100 is the ServiceName attribute of the name, header, `(byte)Length` and UTF-8, so it reads back as the name when that is ASCII and short; the other attributes are kept; an id already present makes `Add` throw |
| Sdp.AvatarSdpAttributes | BuildQuickStart/BtAvatar/BtAvatar/BtAvatar/MainPage.xaml.cs:39-41 | on a provider without a ServiceName, "Sensor Avatar Service" lands under 0x0100 and reads back |
| Sdp.AvatarServiceName | BuildQuickStart/BtAvatar/BtAvatar/BtAvatar/MainPage.xaml.cs:39-41 | the published record is `[0x25, 21]` then the name, and parses back to the name |
| Avatar.RateText | BuildQuickStart/BtAvatar/BtAvatar/BtAvatar/MainPage.xaml.cs:212 | the rate's text has a decimal point iff the tenths digit is non-zero, and its digits denote the rate |
| Avatar.Dispatch | BuildQuickStart/BtAvatar/BtAvatar/BtAvatar/MainPage.xaml.cs:192-212 | Walking plays at 1.0, Running at 1.5, every other message pauses at the old rate; the status names the message and the rate |
| Avatar.DispatchKeepsRate | BuildQuickStart/BtAvatar/BtAvatar/BtAvatar/MainPage.xaml.cs:192-210 | from rate 1.0 or 1.5, every message keeps the rate at 1.0 or 1.5 |
| Avatar.Handle | BuildQuickStart/BtAvatar/BtAvatar/BtAvatar/MainPage.xaml.cs:187-221 | one status per iteration; an iteration shows the exception status iff its payload was caught, and that status always prints False |
| Avatar.HandleCaught | BuildQuickStart/BtAvatar/BtAvatar/BtAvatar/MainPage.xaml.cs:217-221 | a caught iteration shows the exception status and leaves the player to the next iteration unchanged |
| Avatar.HandleSkipsCaught | BuildQuickStart/BtAvatar/BtAvatar/BtAvatar/MainPage.xaml.cs:163-221 | for any mix of messages and caught iterations, the player ends where dispatching just the messages leads, and the activity statuses are theirs, in order |
| Avatar.HandleKeepsRate | BuildQuickStart/BtAvatar/BtAvatar/BtAvatar/MainPage.xaml.cs:192-221 | from rate 1.0 or 1.5, the read loop keeps the rate at 1.0 or 1.5 whatever it hands on |
| Avatar.Serve | BuildQuickStart/BtAvatar/BtAvatar/BtAvatar/MainPage.xaml.cs:155-222 | a session shows one status per whole frame and always ends with `remoteDisconnection` set |
| Avatar.HandleMessages | BuildQuickStart/BtAvatar/BtAvatar/BtAvatar/MainPage.xaml.cs:189-213 | handing on decoded messages is dispatching them one by one in order |
| Avatar.ServeCaughtFrame | BuildQuickStart/BtAvatar/BtAvatar/BtAvatar/MainPage.xaml.cs:163-221 | an undecodable frame on the wire shows one exception status, and the session goes on as if only the frames after it had been sent |
| Avatar.ServeFromStartKeepsRate | BuildQuickStart/BtAvatar/BtAvatar/BtAvatar/MainPage.xaml.cs:163-221 | a first connection, from a MediaElement at rate 1.0, leaves the rate at 1.0 or 1.5 whatever the peer sends |
| Avatar.ServeFrames | BuildQuickStart/BtAvatar/BtAvatar/BtAvatar/MainPage.xaml.cs:163-222 | for frames with byte-count prefixes, the avatar ends exactly where dispatching the sent messages in order leads |
| Avatar.Disconnect | BuildQuickStart/BtAvatar/BtAvatar/BtAvatar/MainPage.xaml.cs:225-250 | all four fields end null; each is released iff it was set, in field order |
| Avatar.DisconnectIdempotent | BuildQuickStart/BtAvatar/BtAvatar/BtAvatar/MainPage.xaml.cs:225-250 | a second Disconnect releases nothing |
| Avatar.OnConnectionReceived | BuildQuickStart/BtAvatar/BtAvatar/BtAvatar/MainPage.xaml.cs:129-222 | the listener is dropped first; a missing socket leads to Disconnect, otherwise the read loop runs and leaves writer and socket open |
| Avatar.ConnectionThenDisconnect | BuildQuickStart/BtAvatar/BtAvatar/BtAvatar/MainPage.xaml.cs:129-250 | after a refusal a later Disconnect releases nothing; after a served session it releases the writer and socket once each, the provider if held, and never the listener again |
| Avatar.TogglePlayState | BuildQuickStart/BtAvatar/BtAvatar/BtAvatar/MainPage.xaml.cs:275-304 | by counter mod 3: play at 1.0, play at 2.0, pause at the old rate; any multiple of 3, negative included, plays at 1.0, and a negative non-multiple pauses at the old rate; the counter rises by 1 and wraps int.MaxValue to int.MinValue |
| Avatar.ToggleCycle | BuildQuickStart/BtAvatar/BtAvatar/BtAvatar/MainPage.xaml.cs:281-302 | three clicks from a multiple of 3 give play 1.0, play 2.0, pause at 2.0, and advance the counter by 3 |
| Avatar.ServeSingle | BuildQuickStart/BtAvatar/BtAvatar/BtAvatar/MainPage.xaml.cs:189-213 | a connection carrying one message shows that message's dispatch and nothing else |
| Avatar.SensorToggleDrivesAvatar | BuildQuickStart/BtAvatar/BtAvatar/BtAvatar/MainPage.xaml.cs:192-210 | a sensor toggle click drives the avatar into the play state the avatar's own toggle reaches for the same counter |
| LegoMotor.Encode | BuildInAppGATT/BluetoothInAppGATT/cs/Scenario1_InAppGATT.xaml.cs:330-336 | a command is 4 bytes whose size byte counts the data after it, with the power as a signed byte |
| LegoMotor.Decode | BuildInAppGATT/BluetoothInAppGATT/cs/Scenario1_InAppGATT.xaml.cs:330-336 | bytes are a command iff they are 4 long with size byte 1, and then they are that command's encoding |
| LegoMotor.DecodeEncode | BuildInAppGATT/BluetoothInAppGATT/cs/Scenario1_InAppGATT.xaml.cs:330-336 | every command reads back as itself |
| LegoMotor.ButtonCommands | BuildInAppGATT/BluetoothInAppGATT/cs/Scenario1_InAppGATT.xaml.cs:330-368 | the Forward, Stop and Backward arrays are port-1 power commands at +100, 0 and -100, so Backward negates Forward |
| InAppGatt.StopWatcher | BuildInAppGATT/BluetoothInAppGATT/cs/Scenario1_InAppGATT.xaml.cs:73-80 | `Stop()` is called iff the watcher exists and is Started or EnumerationCompleted; afterwards it is not stoppable |
| InAppGatt.StopWatcherTwice | BuildInAppGATT/BluetoothInAppGATT/cs/Scenario1_InAppGATT.xaml.cs:212-219 | a second guarded stop calls nothing and changes nothing |
| InAppGatt.StartClicked | BuildInAppGATT/BluetoothInAppGATT/cs/Scenario1_InAppGATT.xaml.cs:97-124 | starting greys Start, enables Stop, clears the list and leaves a watcher that the guarded stop will stop |
| InAppGatt.StartThenStop | BuildInAppGATT/BluetoothInAppGATT/cs/Scenario1_InAppGATT.xaml.cs:69-124 | Start then Stop calls `Stop()` exactly once and ends with Start enabled, Stop disabled and an empty list |
| InAppGatt.StopBleDeviceWatcher | BuildInAppGATT/BluetoothInAppGATT/cs/Scenario1_InAppGATT.xaml.cs:69-83 | stopping greys Stop, enables Start, keeps the list and stops the watcher through the guard |
| InAppGatt.StopBleDeviceWatcherIdempotent | BuildInAppGATT/BluetoothInAppGATT/cs/Scenario1_InAppGATT.xaml.cs:69-83 | stopping twice is stopping once |
| InAppGatt.OnDeviceEvent | BuildInAppGATT/BluetoothInAppGATT/cs/Scenario1_InAppGATT.xaml.cs:128-205 | Added appends, Updated and Removed act on the first match, the count reported is the list length, and buttons refresh iff the updated entry is the selected one |
| InAppGatt.RemovedCount | BuildInAppGATT/BluetoothInAppGATT/cs/Scenario1_InAppGATT.xaml.cs:180-191 | after Removed the reported count drops by one iff some entry had the Id |
| InAppGatt.UpdateButtons | BuildInAppGATT/BluetoothInAppGATT/cs/Scenario1_InAppGATT.xaml.cs:375-419 | motors grey out; Pair iff selected and unpaired; Unpair iff selected and paired; the old watcher is stopped and a new one runs iff Unpair is offered |
| InAppGatt.PairUnpairExclusive | BuildInAppGATT/BluetoothInAppGATT/cs/Scenario1_InAppGATT.xaml.cs:385-402 | Pair and Unpair are never both offered, and neither without a selection |
| InAppGatt.OnUiEvent | BuildInAppGATT/BluetoothInAppGATT/cs/Scenario1_InAppGATT.xaml.cs:282-325 | selection and finished (un)pairing run UpdateButtons; a Pair or Unpair click greys its own button and the list; a found service enables the motors |
| InAppGatt.OnUiEventKeepsPanel | BuildInAppGATT/BluetoothInAppGATT/cs/Scenario1_InAppGATT.xaml.cs:237-244 | the motor buttons move together, Pair and Unpair stay exclusive, and only a found service turns the motors on |
| InAppGatt.MotorButtonBytes | BuildInAppGATT/BluetoothInAppGATT/cs/Scenario1_InAppGATT.xaml.cs:327-373 | each motor button writes a valid command at full forward, zero or full backward |
| InAppGatt.Convert | BuildInAppGATT/BluetoothInAppGATT/cs/Scenario1_InAppGATT.xaml.cs:517-532 | null unless given a dictionary and a non-empty string key; then the property, or the indexer's KeyNotFound when absent |
| InAppGatt.ConvertReadsOnlyKey | BuildInAppGATT/BluetoothInAppGATT/cs/Scenario1_InAppGATT.xaml.cs:517-532 | dictionaries that agree on the key convert alike, whatever else they hold |
| AdvertisementTask.Run | BluetoothBeyondBeacons/cs/Tasks/AdvertisementWatcherTask.cs:65-119 | nothing happens unless details exist, error is Success, the list is non-empty and the first RSSI exceeds -40; then deferral, connect, write Forward, wait 2 s, dispose, complete, with the deferral taken and completed once |
| AdvertisementTask.OnlyFirstAdvertisement | BluetoothBeyondBeacons/cs/Tasks/AdvertisementWatcherTask.cs:88-93 | advertisements after the first never change the outcome |
| AdvertisementTask.ThresholdIsStrict | BluetoothBeyondBeacons/cs/Tasks/AdvertisementWatcherTask.cs:93 | -40 dBm does nothing, -39 dBm drives the motor |
| AdvertisementTask.WritesFullForward | BluetoothBeyondBeacons/cs/Tasks/AdvertisementWatcherTask.cs:46-59 | the task writes the in-app Forward command, port 1 at +100 |
| BeaconProximity.InitTrigger | BluetoothBeyondBeacons/cs/Scenario1_BeaconProximity.xaml.cs:47-63 | one service-UUID filter; in range -80 above out of range -90; 5000 ms timeout, 2000 ms sampling; the motor threshold lies inside the in-range band |
| BeaconProximity.Lookup | BluetoothBeyondBeacons/cs/Scenario1_BeaconProximity.xaml.cs:93-101 | binds the first task named "Beacon_BackgroundTask", and binds nothing iff none exists |
| BeaconProximity.Unregister | BluetoothBeyondBeacons/cs/Scenario1_BeaconProximity.xaml.cs:213 | the unregistered task leaves the list and every other task stays |
| BeaconProximity.Attach | BluetoothBeyondBeacons/cs/Scenario1_BeaconProximity.xaml.cs:90-106 | a set field gains a subscription; a null field binds the first named task, subscribing iff one exists |
| BeaconProximity.Detach | BluetoothBeyondBeacons/cs/Scenario1_BeaconProximity.xaml.cs:123-127 | a set field loses one subscription, never going below none |
| BeaconProximity.Step | BluetoothBeyondBeacons/cs/Scenario1_BeaconProximity.xaml.cs:229-289 | only a registration failure other than 0x80070032, while unregistered, escapes the handler |
| BeaconProximity.StepPreservesInv | BluetoothBeyondBeacons/cs/Scenario1_BeaconProximity.xaml.cs:162-168 | every event keeps: one subscription exactly while shown and registered, a live named registration, at most one named task |
| BeaconProximity.InitialInv | BluetoothBeyondBeacons/cs/Scenario1_BeaconProximity.xaml.cs:29 | the page before it is first shown, with no registration bound and no subscription, satisfies the invariant |
| BeaconProximity.NoHandlerLeakFromStart | BluetoothBeyondBeacons/cs/Scenario1_BeaconProximity.xaml.cs:125-126 | from the page's first appearance, any sequence of events leaves at most one subscription |
| BeaconProximity.NoHandlerLeak | BluetoothBeyondBeacons/cs/Scenario1_BeaconProximity.xaml.cs:125-126 | across any sequence of events subscriptions never exceed one |
| BeaconProximity.RunWhileRegistered | BluetoothBeyondBeacons/cs/Scenario1_BeaconProximity.xaml.cs:233-237 | Run while registered only says so; nothing changes |
| BeaconProximity.RunRegisters | BluetoothBeyondBeacons/cs/Scenario1_BeaconProximity.xaml.cs:258-274 | a successful Run leaves a live registration with one subscription; Denied or Unspecified only changes the message |
| BeaconProximity.RunFails | BluetoothBeyondBeacons/cs/Scenario1_BeaconProximity.xaml.cs:276-286 | a failed registration stays unregistered: 0x80070032 is reported, anything else escapes |
| BeaconProximity.StopTwice | BluetoothBeyondBeacons/cs/Scenario1_BeaconProximity.xaml.cs:207-222 | Stop clears the registration; a second Stop only reports that none is registered |
| BeaconProximity.RunThenStop | BluetoothBeyondBeacons/cs/Scenario1_BeaconProximity.xaml.cs:211-215 | Run then Stop from an unregistered page restores the page and the task list |
| BeaconProximity.BackgroundMessage | BluetoothBeyondBeacons/cs/Scenario1_BeaconProximity.xaml.cs:73-75 | a message is read iff the settings hold the task-name key, and it is that key's value |
| BeaconProximity.BackgroundMessageReadsOnlyTaskKey | BluetoothBeyondBeacons/cs/Scenario1_BeaconProximity.xaml.cs:73-75 | settings that agree on the task-name key give the same message, whatever other keys they hold |

## Left out

- Platform calls are not modelled. This covers RFCOMM, GATT, DeviceWatcher, BackgroundTaskRegistration, ActivitySensor, FilePicker and MediaElement. Their results are inputs, and calls the code does not check are taken to succeed. The device lookups and `GetCharacteristics(...)[0]` in the background task are among them.
- Concurrency is not modelled: `async`/`await`, `Dispatcher.RunAsync`, the `lock` around socket creation, and sending while receiving. The model is sequential.
- The activity sensor subscription (`EnableActivityDetectionAsync`, `ReadingChanged`) is left out. It only feeds `ActivityType.ToString()` into SendMessage, and SendMessage is modelled for every string of Unicode scalar values.
- `InitializeRfcommServer`, `ChooseAvatar_Click`, the beacon page's `RequestButton_Click` and the GATT service watcher's empty handlers are left out. They only call platform APIs.
- Playback rates are integers in tenths rather than doubles. Status strings are compared only where a property names them. Exception messages are left out.
- Framing.ReadLoop: an exception thrown by `LoadAsync` itself, such as a reset connection, is not modelled. The loop's catch would retry forever. The model's input is everything the peer sent, ending in a short read.
- Framing.ReadString: invalid UTF-8 is taken to make `ReadString` throw. The decoder's replacement-character behaviour is not modelled. The read that throws is also taken to use up the `currentLength` bytes that `LoadAsync` loaded, so the next iteration starts at the next frame (`Framing.ReadLoop`, `Framing.CaughtFrameContinues`). If DataReader left those bytes unread, the next prefix would start inside the bad payload.
- Utf8.Utf16Length: a C# string can hold unpaired surrogates, which a Dafny string cannot. Such strings are not modelled; every text here is a sequence of Unicode scalar values.
- Framing.Encode: messages are limited to fewer than 2^32 UTF-8 bytes, which is what the 32-bit prefix can express.
- DataWriter and DataReader byte order is fixed to their default, big-endian, on both ends.
- Base.CsRemainder: for a negative dividend, only the sign and the bound are stated, not the congruence with the dividend.
- Sensor.Connect: `deviceWatcher.Stop()` is called without a status check and is taken to succeed. The watcher's status at that point is not modelled, so the exception a stop outside Started or EnumerationCompleted would raise is not represented.
- Sensor.SendMessage: the sender is modelled as written. Its round trip is promised only for ASCII messages; for any other text the model promises only that the lone frame is not read back as the message's bytes, not what the receiver makes of it.
- Avatar.Handle: the caught-exception path assumes that the catch block's direct `Status.Text` write succeeds even though the handler runs off the UI thread. If that write throws, the exception leaves the `async void` handler and the loop ends instead of continuing. The model does not represent that.
- Avatar.RateText: the rate is rendered with a '.' decimal separator, as `double.ToString()` does in an invariant or English culture. Under a culture such as de-DE the code would write "1,5". The current culture is not modelled.
- InAppGatt.OnDeviceEvent: the list view's selection is an input, the index of the selected item. How the list view moves the selection when items are removed is not modelled.
- InAppGatt.UpdateButtons: when a new service watcher starts, the old one is replaced. Its guarded stop is not recorded separately.
- The beacon page's `BackgroundTaskBuilder` entry point ("BackgroundTasks.AdvertisementWatcherTask") and trigger are handed to the platform. A registration in the model records only its id and name.
- BeaconProximity.Step: subscriptions left on a registration after Stop unregisters it can no longer fire and are not counted. The page is a single instance, and Suspending and Resuming reach it only while it is shown.

## Findings

| source | as written | input that shows it | evidently intended | confidence | as-written member | corrected member |
|---|---|---|---|---|---|---|
| BuildQuickStart/BtSensor/AvatarSensor/MainPage.xaml.cs:231-232 | the prefix is `(uint)message.Length`, the UTF-16 code-unit count, while `WriteString` sends UTF-8 bytes | "é" then "Walking": prefix 1 but 2 payload bytes. The receiver reads one byte and fails to decode it. Taking the failed read to consume that byte, it then takes 0xA9000000 as the next length and stops; if the byte were left unread, the next length would be 0xC3A90000 and it would stop the same way. Either way neither message arrives | the prefix is the payload's UTF-8 byte count, as the receiver's `ReadString(currentLength)` needs | high (proved; not executed) | Framing.EncodeAsWritten (shown by Framing.AsWrittenLosesMessages and Framing.AsWrittenMisframes) | Framing.Encode (proved by Framing.RoundTrip) |

The activity names the app sends are ASCII, and for ASCII the two prefixes agree (Framing.AsWrittenAgreesOnAscii), so the shipped app does not hit this. For every other text they differ (Utf8.Utf16BelowUtf8). The SDP record's length byte `(byte)SdpServiceName.Length` has the same mismatch, and a reader rejects such a record (Sdp.ServiceNameMisframed), but its constant name is ASCII (Sdp.AvatarServiceName).

=== FILE: advertisement_task.dfy ===
/**
  The background task (Tasks/AdvertisementWatcherTask.cs) the system runs
  when the advertisement watcher trigger fires: if the first advertisement
  it received is strong enough, it connects to the hub, spins its motor for
  a fixed time and disconnects.
 */
module AdvertisementTask {
  import opened Base
  import LegoMotor

  /** `WriteCharacteristicMinRSSI`: the motor runs only above this level. */
  const MIN_RSSI: int := -40

  /** `MotorSpinSeconds`, and the same span in milliseconds. */
  const MOTOR_SPIN_SECONDS: nat := 2
  const MOTOR_SPIN_MS: nat := MOTOR_SPIN_SECONDS * 1000

  /** BluetoothError: only Success matters to the task. */
  datatype BluetoothError = Success | OtherError(code: nat)

  /** One received advertisement: its raw signal strength in dBm and the
      sender's Bluetooth address. */
  datatype Advertisement = Advertisement(rssi: int, address: nat)

  /** BluetoothLEAdvertisementWatcherTriggerDetails. */
  datatype TriggerDetails = TriggerDetails(error: BluetoothError, ads: seq<Advertisement>)

  /** What the task does, in order. The platform calls are taken to succeed. */
  datatype Effect =
    | TakeDeferral
    | ConnectDevice(address: nat)
    | WriteCharacteristic(bytes: seq<byte>)
    | Delay(ms: nat)
    | DisposeDevice
    | CompleteDeferral

  /** The trigger decision: details of the right type, no watcher error, at
      least one advertisement, and the first one strictly stronger than the
      threshold. */
  predicate Acts(details: Option<TriggerDetails>) {
    details.Some? && details.value.error == Success && |details.value.ads| > 0 &&
    details.value.ads[0].rssi > MIN_RSSI
  }

  /** Run: nothing at all unless the decision holds; otherwise a deferral is
      taken before anything else and completed exactly once as the last
      step, after connecting to the first advertiser, writing the full
      forward command, waiting two seconds and disposing the device. */
  function Run(details: Option<TriggerDetails>): (effects: seq<Effect>)
    ensures !Acts(details) ==> effects == []
    ensures Acts(details) ==>
      |effects| == 6 && effects[0] == TakeDeferral && effects[|effects| - 1] == CompleteDeferral &&
      forall i :: 0 < i < |effects| - 1 ==> !effects[i].TakeDeferral? && !effects[i].CompleteDeferral?
    ensures Acts(details) ==>
      effects[1] == ConnectDevice(details.value.ads[0].address) &&
      effects[2] == WriteCharacteristic(LegoMotor.FORWARD_BYTES) &&
      effects[3] == Delay(MOTOR_SPIN_MS) && effects[4] == DisposeDevice
  {
    if details.None? then []
    else if details.value.error != Success then []
    else if |details.value.ads| == 0 then []
    else
      var first := details.value.ads[0];
      if first.rssi > MIN_RSSI then
        var effects := [TakeDeferral, ConnectDevice(first.address), WriteCharacteristic(LegoMotor.FORWARD_BYTES),
                        Delay(MOTOR_SPIN_MS), DisposeDevice, CompleteDeferral];
        effects
      else []
  }

  /** Only the first advertisement counts: whatever follows it in the list
      changes nothing. */
  lemma OnlyFirstAdvertisement(error: BluetoothError, first: Advertisement, later: seq<Advertisement>, other: seq<Advertisement>)
    ensures Run(Some(TriggerDetails(error, [first] + later))) == Run(Some(TriggerDetails(error, [first] + other)))
  {
  }

  /** The threshold is strict: an advertisement at exactly -40 dBm does
      nothing, one at -39 dBm drives the motor. */
  lemma ThresholdIsStrict(address: nat)
    ensures Run(Some(TriggerDetails(Success, [Advertisement(-40, address)]))) == []
    ensures Run(Some(TriggerDetails(Success, [Advertisement(-39, address)]))) != []
  {
  }

  /** The bytes the task writes are the in-app page's Forward command:
      motor port 1 at full power forward. */
  lemma WritesFullForward(details: Option<TriggerDetails>)
    requires Acts(details)
    ensures Run(details)[2].bytes == LegoMotor.FORWARD_BYTES
    ensures LegoMotor.Decode(Run(details)[2].bytes) ==
      Some(LegoMotor.MotorCommand(LegoMotor.CONNECT_ID, LegoMotor.WRITE_MOTOR_POWER, LegoMotor.FULL_FORWARD))
  {
    LegoMotor.ButtonCommands();
  }
}

=== FILE: avatar.dfy ===
/**
  The avatar app (BtAvatar/MainPage.xaml.cs): it listens for the sensor's
  RFCOMM connection, reads framed activity names and turns each into a
  playback state of its video, and offers a toggle button that cycles the
  same states locally.
 */
module Avatar {
  import opened Base
  import Utf8
  import Framing
  import Sensor

  // ---------------------------------------------------------------------------
  // The video player
  // ---------------------------------------------------------------------------

  datatype PlayState = Playing | Paused

  /** The MediaElement state the page touches. The playback rate is kept in
      tenths: 1.0, 1.5 and 2.0 are 10, 15 and 20. */
  datatype Player = Player(state: PlayState, rateTenths: nat)

  /** A MediaElement starts paused at the default rate 1.0. */
  const INITIAL_PLAYER: Player := Player(Paused, 10)

  predicate AllDigits(s: string) {
    forall i :: 0 <= i < |s| ==> IsDigit(s[i])
  }

  /** How `double.ToString` renders a rate in tenths: the whole part, then a
      point and the tenths digit only when that digit is not zero ("1",
      "1.5", "2"). */
  function RateText(tenths: nat): (s: string)
    ensures '.' in s <==> tenths % 10 != 0
    ensures tenths % 10 == 0 ==> AllDigits(s) && DigitsValue(s) * 10 == tenths
    ensures tenths % 10 != 0 ==>
      |s| >= 3 && s[|s| - 2] == '.' && IsDigit(s[|s| - 1]) && AllDigits(s[..|s| - 2]) &&
      DigitsValue(s[..|s| - 2]) * 10 + DigitValue(s[|s| - 1]) == tenths
  {
    var whole := NatToString(tenths / 10);
    if tenths % 10 == 0 then
      assert forall i :: 0 <= i < |whole| ==> whole[i] != '.' by {
        forall i | 0 <= i < |whole| ensures whole[i] != '.' {
          assert IsDigit(whole[i]);
        }
      }
      whole
    else
      var s := whole + "." + NatToString(tenths % 10);
      assert s[..|s| - 2] == whole;
      s
  }

  // ---------------------------------------------------------------------------
  // The dispatcher
  // ---------------------------------------------------------------------------

  /** What the status line shows for one iteration of the read loop: the
      activity text, or the catch block's message, which prints the
      `remoteDisconnection` flag. */
  datatype Status = ActivityStatus(text: string) | ExceptionStatus(remoteDisconnection: bool)

  datatype Shown = Shown(player: Player, status: Status)

  /** The `switch (message)` in the read loop: Walking plays at 1.0, Running
      plays at 1.5, Stationary and every other text only pause (the rate is
      left as it was). The status names the message and the rate now set. */
  function Dispatch(message: string, p: Player): (r: Shown)
    ensures message == "Walking" ==> r.player == Player(Playing, 10)
    ensures message == "Running" ==> r.player == Player(Playing, 15)
    ensures r.player.state == Playing <==> message == "Walking" || message == "Running"
    ensures r.player.state == Paused ==> r.player.rateTenths == p.rateTenths
    ensures r.status == ActivityStatus("Activity: " + message + "PlaybackRate= " + RateText(r.player.rateTenths))
  {
    var player :=
      match message
      case "Walking" => Player(Playing, 10)
      case "Running" => Player(Playing, 15)
      case "Stationary" => Player(Paused, p.rateTenths)
      case _ => Player(Paused, p.rateTenths);
    Shown(player, ActivityStatus("Activity: " + message + "PlaybackRate= " + RateText(player.rateTenths)))
  }

  /** The rates a connected avatar can show are 1.0 and 1.5: starting from
      either, every message keeps it there. */
  lemma DispatchKeepsRate(message: string, p: Player)
    requires p.rateTenths == 10 || p.rateTenths == 15
    ensures var q := Dispatch(message, p).player; q.rateTenths == 10 || q.rateTenths == 15
  {
  }

  // ---------------------------------------------------------------------------
  // OnConnectionReceived: the read loop
  // ---------------------------------------------------------------------------

  /** The loop body applied to what each iteration handed on: a message is
      dispatched; a caught exception only shows its status (the catch block's
      direct status write is taken to succeed), and since
      `remoteDisconnection` is set only right before a `break`, that status
      always prints false. */
  function Handle(items: seq<Framing.Item>, p: Player): (r: (Player, seq<Status>))
    ensures |r.1| == |items|
    ensures forall i :: 0 <= i < |items| ==> (items[i].Caught? <==> r.1[i] == ExceptionStatus(false))
    ensures forall i :: 0 <= i < |items| ==> r.1[i].ActivityStatus? || r.1[i] == ExceptionStatus(false)
  {
    if items == [] then (p, [])
    else
      match items[0]
      case Caught =>
        var (q, rest) := Handle(items[1..], p);
        (q, [ExceptionStatus(false)] + rest)
      case Message(m) =>
        var d := Dispatch(m, p);
        var (q, rest) := Handle(items[1..], d.player);
        (q, [d.status] + rest)
  }

  /** What one connection leaves behind: the player, the statuses shown in
      order, and the flag the loop set when it broke out. */
  datatype Session = Session(player: Player, statuses: seq<Status>, remoteDisconnection: bool)

  /** The read loop over everything the peer sent: one status per whole
      frame, and the loop always ends through a short read, which sets
      `remoteDisconnection`. */
  function Serve(input: seq<byte>, p: Player): (s: Session)
    ensures s.remoteDisconnection
    ensures |s.statuses| == |Framing.ReadLoop(input)|
    ensures forall i :: 0 <= i < |s.statuses| ==> s.statuses[i] != ExceptionStatus(true)
  {
    var (q, statuses) := Handle(Framing.ReadLoop(input), p);
    Session(q, statuses, true)
  }

  /** Over the wire, a whole frame that does not decode shows one exception
      status and leaves the session to the frames after it. */
  lemma ServeCaughtFrame(b: seq<byte>, rest: seq<byte>, p: Player)
    requires |b| < UINT32_LIMIT && Utf8.Decode(b).None?
    ensures Serve(Uint32ToBytes(|b|) + b + rest, p) ==
      Session(Serve(rest, p).player, [ExceptionStatus(false)] + Serve(rest, p).statuses, true)
  {
    Framing.CaughtFrameContinues(b, rest);
    HandleCaught(Framing.ReadLoop(rest), p);
  }

  /** The reference behaviour: each message in turn through the dispatcher. */
  function DispatchAll(ms: seq<string>, p: Player): (r: (Player, seq<Status>))
    ensures |r.1| == |ms|
  {
    if ms == [] then (p, [])
    else
      var d := Dispatch(ms[0], p);
      var (q, rest) := DispatchAll(ms[1..], d.player);
      (q, [d.status] + rest)
  }

  lemma {:induction false} HandleMessages(ms: seq<string>, p: Player)
    ensures Handle(Framing.Messages(ms), p) == DispatchAll(ms, p)
  {
    if ms != [] {
      var items := Framing.Messages(ms);
      assert items[0] == Framing.Message(ms[0]);
      assert items[1..] == Framing.Messages(ms[1..]);
      HandleMessages(ms[1..], Dispatch(ms[0], p).player);
    }
  }

  /** The avatar does, for the sensor's frames, exactly what dispatching the
      sent messages in order does. */
  lemma ServeFrames(ms: seq<string>, p: Player)
    requires forall i :: 0 <= i < |ms| ==> Framing.Encodable(ms[i])
    ensures Serve(Framing.EncodeAll(ms), p) == Session(DispatchAll(ms, p).0, DispatchAll(ms, p).1, true)
  {
    Framing.RoundTrip(ms);
    HandleMessages(ms, p);
  }

  /** The texts of the decoded messages among `items`, in order. */
  function Texts(items: seq<Framing.Item>): (ms: seq<string>)
    ensures |ms| <= |items|
  {
    if items == [] then []
    else
      match items[0]
      case Caught => Texts(items[1..])
      case Message(m) => [m] + Texts(items[1..])
  }

  /** The activity statuses among `statuses`, in order. */
  function Activities(statuses: seq<Status>): (r: seq<Status>)
    ensures |r| <= |statuses|
  {
    if statuses == [] then []
    else if statuses[0].ActivityStatus? then [statuses[0]] + Activities(statuses[1..])
    else Activities(statuses[1..])
  }

  /** A caught iteration does nothing but show its status: the loop goes on
      from the same player. */
  lemma HandleCaught(items: seq<Framing.Item>, p: Player)
    ensures Handle([Framing.Caught] + items, p) == (Handle(items, p).0, [ExceptionStatus(false)] + Handle(items, p).1)
  {
  }

  /** Whatever mix of messages and caught iterations the loop hands on, the
      player ends where dispatching just the messages leads, and the activity
      statuses are exactly theirs, in order. */
  lemma {:induction false} HandleSkipsCaught(items: seq<Framing.Item>, p: Player)
    ensures Handle(items, p).0 == DispatchAll(Texts(items), p).0
    ensures Activities(Handle(items, p).1) == DispatchAll(Texts(items), p).1
  {
    if items != [] {
      var h := Handle(items, p);
      match items[0]
      case Caught =>
        HandleSkipsCaught(items[1..], p);
        assert h.1 == [ExceptionStatus(false)] + Handle(items[1..], p).1;
        assert Activities(h.1) == Activities(Handle(items[1..], p).1);
      case Message(m) =>
        var d := Dispatch(m, p);
        HandleSkipsCaught(items[1..], d.player);
        assert Texts(items) == [m] + Texts(items[1..]);
        assert ([m] + Texts(items[1..]))[1..] == Texts(items[1..]);
        assert h.1 == [d.status] + Handle(items[1..], d.player).1;
        assert ([d.status] + Handle(items[1..], d.player).1)[1..] == Handle(items[1..], d.player).1;
    }
  }

  /** A fresh MediaElement plays at 1.0; whatever the peer sends, the read
      loop leaves the rate at 1.0 or 1.5. */
  lemma {:induction false} HandleKeepsRate(items: seq<Framing.Item>, p: Player)
    requires p.rateTenths == 10 || p.rateTenths == 15
    ensures Handle(items, p).0.rateTenths == 10 || Handle(items, p).0.rateTenths == 15
  {
    if items != [] {
      match items[0]
      case Caught =>
        HandleKeepsRate(items[1..], p);
      case Message(m) =>
        DispatchKeepsRate(m, p);
        HandleKeepsRate(items[1..], Dispatch(m, p).player);
    }
  }

  lemma ServeFromStartKeepsRate(input: seq<byte>)
    ensures var q := Serve(input, INITIAL_PLAYER).player; q.rateTenths == 10 || q.rateTenths == 15
  {
    HandleKeepsRate(Framing.ReadLoop(input), INITIAL_PLAYER);
  }

  /** Resources the page holds: the RFCOMM service provider, the socket
      listener, the chat writer and the socket (true when non-null). */
  datatype Resources = Resources(provider: bool, listener: bool, writer: bool, socket: bool)

  const RELEASED: Resources := Resources(false, false, false, false)

  /** The calls Disconnect makes, in the order it makes them. */
  datatype Release = StopAdvertising | DisposeListener | DetachStream | DisposeSocket
  {
    function Rank(): nat {
      match this
      case StopAdvertising => 0
      case DisposeListener => 1
      case DetachStream => 2
      case DisposeSocket => 3
    }
  }

  datatype Disconnected = Disconnected(after: Resources, calls: seq<Release>)

  /** Calls strictly in field order. */
  predicate Ordered(calls: seq<Release>) {
    forall i, j :: 0 <= i < j < |calls| ==> calls[i].Rank() < calls[j].Rank()
  }

  /** One null check of Disconnect: release `c` when its field is held. */
  function ReleaseIf(calls: seq<Release>, held: bool, c: Release): (r: seq<Release>)
    requires Ordered(calls) && forall x :: x in calls ==> x.Rank() < c.Rank()
    ensures Ordered(r) && forall x :: x in r ==> x.Rank() <= c.Rank()
    ensures c in r <==> held
    ensures forall x :: x != c ==> (x in r <==> x in calls)
  {
    if held then calls + [c] else calls
  }

  /** Disconnect: every field ends null; each non-null one is released once,
      in field order, and a null one is skipped. */
  function Disconnect(r: Resources): (d: Disconnected)
    ensures d.after == RELEASED
    ensures StopAdvertising in d.calls <==> r.provider
    ensures DisposeListener in d.calls <==> r.listener
    ensures DetachStream in d.calls <==> r.writer
    ensures DisposeSocket in d.calls <==> r.socket
    ensures Ordered(d.calls)
  {
    var c1 := ReleaseIf([], r.provider, StopAdvertising);
    var c2 := ReleaseIf(c1, r.listener, DisposeListener);
    var c3 := ReleaseIf(c2, r.writer, DetachStream);
    var c4 := ReleaseIf(c3, r.socket, DisposeSocket);
    Disconnected(RELEASED, c4)
  }

  /** A second Disconnect finds nothing left to release. */
  lemma DisconnectIdempotent(r: Resources)
    ensures Disconnect(Disconnect(r).after) == Disconnected(RELEASED, [])
  {
  }

  /** What OnConnectionReceived leaves: the listener is disposed first; if
      the socket cannot be taken from the arguments, Disconnect runs and no
      session starts; otherwise the loop runs to the peer's end and nothing
      is released afterwards, so the writer and socket stay open. */
  datatype Connection = Refused(released: Disconnected) | Served(session: Session, held: Resources)

  function OnConnectionReceived(r: Resources, socketAvailable: bool, input: seq<byte>, p: Player): (c: Connection)
    ensures !socketAvailable ==> c.Refused? && c.released.after == RELEASED && DisposeListener !in c.released.calls
    ensures socketAvailable ==> c.Served? && c.session == Serve(input, p)
    ensures socketAvailable ==> c.held == Resources(r.provider, false, true, true)
  {
    var noListener := r.(listener := false);
    if !socketAvailable then Refused(Disconnect(noListener))
    else Served(Serve(input, p), noListener.(writer := true, socket := true))
  }

  /** A later Disconnect after a connection: after a refusal there is
      nothing left to release; after a served session it releases the writer
      and the socket once each, and the provider if it was still held, but
      never the listener a second time. */
  lemma ConnectionThenDisconnect(r: Resources, socketAvailable: bool, input: seq<byte>, p: Player)
    ensures var c := OnConnectionReceived(r, socketAvailable, input, p);
            (c.Refused? ==> Disconnect(c.released.after).calls == []) &&
            (c.Served? ==>
              Disconnect(c.held).calls == (if r.provider then [StopAdvertising] else []) + [DetachStream, DisposeSocket])
  {
  }

  // ---------------------------------------------------------------------------
  // TogglePlayState_Click
  // ---------------------------------------------------------------------------

  datatype Toggled = Toggled(player: Player, clickNum: int)

  /** The local toggle, by C#'s `clickNum % 3`: rate 1.0, rate 2.0, pause;
      the default branch (a negative counter after wrap-around) also
      pauses. The counter is an unchecked int. */
  function TogglePlayState(clickNum: int, p: Player): (t: Toggled)
    requires IsInt32(clickNum)
    ensures clickNum >= 0 ==> t.player == [Player(Playing, 10), Player(Playing, 20), Player(Paused, p.rateTenths)][clickNum % 3]
    ensures t.player.state == Playing <==> clickNum % 3 == 0 || (clickNum >= 0 && clickNum % 3 == 1)
    ensures clickNum % 3 == 0 ==> t.player == Player(Playing, 10)
    ensures t.player.state == Paused ==> t.player.rateTenths == p.rateTenths
    ensures IsInt32(t.clickNum)
    ensures clickNum < INT32_MAX ==> t.clickNum == clickNum + 1
    ensures clickNum == INT32_MAX ==> t.clickNum == INT32_MIN
  {
    Int32IncrementSteps(clickNum);
    var player :=
      match CsRemainder(clickNum, 3)
      case 0 => Player(Playing, 10)
      case 1 => Player(Playing, 20)
      case 2 => Player(Paused, p.rateTenths)
      case _ => Player(Paused, p.rateTenths);
    Toggled(player, Int32Increment(clickNum))
  }

  /** From a counter at a multiple of 3, three clicks go through rate 1.0,
      rate 2.0 and a pause that keeps 2.0, whatever the player was doing. */
  lemma ToggleCycle(clickNum: int, p: Player)
    requires 0 <= clickNum <= INT32_MAX - 3 && clickNum % 3 == 0
    ensures var t1 := TogglePlayState(clickNum, p);
            var t2 := TogglePlayState(t1.clickNum, t1.player);
            var t3 := TogglePlayState(t2.clickNum, t2.player);
            t1.player == Player(Playing, 10) && t2.player == Player(Playing, 20) &&
            t3.player == Player(Paused, 20) && t3.clickNum == clickNum + 3
  {
  }

  // ---------------------------------------------------------------------------
  // Both apps together
  // ---------------------------------------------------------------------------

  /** A connection that carries exactly one message shows that message's
      dispatch and nothing else. */
  lemma ServeSingle(bytes: seq<byte>, m: string, p: Player)
    requires Framing.ReadLoop(bytes) == [Framing.Message(m)]
    ensures Serve(bytes, p) == Session(Dispatch(m, p).player, [Dispatch(m, p).status], true)
  {
    var items := [Framing.Message(m)];
    var d := Dispatch(m, p);
    assert items[1..] == [];
    assert Handle(items[1..], d.player) == (d.player, []);
    assert Handle(items, p) == (d.player, [d.status] + []);
  }

  /** A sensor toggle click from a non-negative counter, sent over a ready
      connection, puts the avatar in the play state its own toggle reaches
      for the same counter, except that Running plays at 1.5 rather than
      2.0. */
  lemma SensorToggleDrivesAvatar(clickNum: int, p: Player)
    requires 0 <= clickNum <= INT32_MAX
    ensures var click := Sensor.MessageToggleClick(true, clickNum);
            var s := Serve(click.sent.bytes, p);
            |s.statuses| == 1 &&
            s.player.state == TogglePlayState(clickNum, p).player.state &&
            (clickNum % 3 == 0 ==> s.player == Player(Playing, 10)) &&
            (clickNum % 3 == 1 ==> s.player == Player(Playing, 15)) &&
            (clickNum % 3 == 2 ==> s.player == Player(Paused, p.rateTenths))
  {
    var click := Sensor.MessageToggleClick(true, clickNum);
    ServeSingle(click.sent.bytes, click.message, p);
    var m := click.message;
    var k := clickNum % 3;
    if k == 0 {
      assert m == "Walking";
    } else if k == 1 {
      assert m == "Running";
    } else {
      assert m == "Stationary";
    }
  }
}

=== FILE: base.dfy ===
/**
  Machine-level building blocks shared by the Bluetooth samples: bytes, the
  32-bit unsigned integers a DataWriter/DataReader pair exchanges, two's-
  complement bytes, C#'s 32-bit `int` counters with their unchecked
  wrap-around and truncating remainder, and decimal rendering of numbers.
 */
module Base {

  /** The Some/None wrapper used for nullable references and lookups. */
  datatype Option<+T> = None | Some(value: T)

  /** An unsigned 8-bit value, as in C#'s `byte`. */
  type byte = x: int | 0 <= x < 0x100

  const UINT32_LIMIT: int := 0x1_0000_0000
  const INT32_MIN: int := -0x8000_0000
  const INT32_MAX: int := 0x7FFF_FFFF

  predicate IsInt32(x: int) {
    INT32_MIN <= x <= INT32_MAX
  }

  /** Stated once so that proofs over long sequences need not rediscover it. */
  lemma AppendAssociative<T>(a: seq<T>, b: seq<T>, c: seq<T>)
    ensures a + (b + c) == (a + b) + c
  {
  }

  // ---------------------------------------------------------------------------
  // 32-bit unsigned integers on the wire
  // ---------------------------------------------------------------------------

  /** The value of four bytes read by DataReader.ReadUInt32 in the reader's
      default (big-endian) byte order. */
  function BytesToUint32(b: seq<byte>): (n: nat)
    requires |b| == 4
    ensures n < UINT32_LIMIT
  {
    b[0] as int * 0x100_0000 + b[1] as int * 0x1_0000 + b[2] as int * 0x100 + b[3] as int
  }

  /** The four bytes DataWriter.WriteUInt32 emits in the writer's default
      (big-endian) byte order; the reader gives back the same number. */
  function Uint32ToBytes(n: nat): (b: seq<byte>)
    requires n < UINT32_LIMIT
    ensures |b| == 4
    ensures BytesToUint32(b) == n
  {
    var q1 := n / 0x100;
    var q2 := q1 / 0x100;
    assert n == q1 * 0x100 + n % 0x100;
    assert q1 == q2 * 0x100 + q1 % 0x100;
    assert q2 == (q2 / 0x100) * 0x100 + q2 % 0x100;
    [q2 / 0x100, q2 % 0x100, q1 % 0x100, n % 0x100]
  }

  /** Every four-byte sequence is the writer's encoding of the number it
      stands for, so the writer/reader pair is a bijection on 32-bit values. */
  lemma Uint32BytesRoundTrip(b: seq<byte>)
    requires |b| == 4
    ensures Uint32ToBytes(BytesToUint32(b)) == b
  {
    var n := BytesToUint32(b);
    var q1 := n / 0x100;
    assert q1 == b[0] as int * 0x1_0000 + b[1] as int * 0x100 + b[2] as int;
    assert n % 0x100 == b[3];
    assert q1 / 0x100 == b[0] as int * 0x100 + b[1] as int;
    assert q1 % 0x100 == b[2];
    assert (q1 / 0x100) / 0x100 == b[0] && (q1 / 0x100) % 0x100 == b[1];
  }

  // ---------------------------------------------------------------------------
  // Two's-complement bytes
  // ---------------------------------------------------------------------------

  predicate IsInt8(v: int) {
    -0x80 <= v < 0x80
  }

  /** The byte that stores the signed value `v` in two's complement. */
  function FromInt8(v: int): (b: byte)
    requires IsInt8(v)
    ensures (b < 0x80) == (v >= 0)
  {
    if v < 0 then v + 0x100 else v
  }

  /** The signed value of a byte read as a two's-complement int8. */
  function AsInt8(b: byte): (v: int)
    ensures IsInt8(v)
    ensures FromInt8(v) == b
  {
    if b < 0x80 then b else b - 0x100
  }

  /** Reading back a stored int8 gives the value that was stored. */
  lemma Int8RoundTrip(v: int)
    requires IsInt8(v)
    ensures AsInt8(FromInt8(v)) == v
  {
  }

  // ---------------------------------------------------------------------------
  // C# int arithmetic
  // ---------------------------------------------------------------------------

  /** `x + 1` on a C# `int` in the default unchecked context: two's-complement
      wrap-around from int.MaxValue to int.MinValue. */
  function Int32Increment(x: int): (r: int)
    requires IsInt32(x)
    ensures IsInt32(r)
    ensures (r - (x + 1)) % UINT32_LIMIT == 0
  {
    (x + 1 - INT32_MIN) % UINT32_LIMIT + INT32_MIN
  }

  /** Only int.MaxValue wraps; every other counter value just rises by one. */
  lemma Int32IncrementSteps(x: int)
    requires IsInt32(x)
    ensures x < INT32_MAX ==> Int32Increment(x) == x + 1
    ensures x == INT32_MAX ==> Int32Increment(x) == INT32_MIN
  {
  }

  /** C#'s `%` operator: the remainder of division truncated toward zero, so
      its sign follows the dividend (Dafny's own `%` is never negative). */
  function CsRemainder(a: int, b: int): (r: int)
    requires b > 0
    ensures -b < r < b
    ensures a >= 0 ==> r >= 0
    ensures a <= 0 ==> r <= 0
    ensures a >= 0 ==> r == a % b
  {
    if a >= 0 then a % b else -((-a) % b)
  }

  // ---------------------------------------------------------------------------
  // Decimal text
  // ---------------------------------------------------------------------------

  predicate IsDigit(c: char) {
    '0' <= c <= '9'
  }

  function DigitValue(c: char): nat
    requires IsDigit(c)
  {
    c as int - '0' as int
  }

  /** The number a string of decimal digits denotes. */
  function DigitsValue(s: string): nat
    requires forall i :: 0 <= i < |s| ==> IsDigit(s[i])
  {
    if s == [] then 0 else DigitsValue(s[..|s| - 1]) * 10 + DigitValue(s[|s| - 1])
  }

  /** Decimal rendering of a natural number, as Int32.ToString gives it. */
  function NatToString(n: nat): (s: string)
    ensures |s| >= 1
    ensures forall i :: 0 <= i < |s| ==> IsDigit(s[i])
    ensures DigitsValue(s) == n
    ensures n >= 10 ==> s[0] != '0'
  {
    var d := ['0' + (n % 10) as char];
    if n < 10 then d else NatToString(n / 10) + d
  }
}

=== FILE: beacon_proximity.dfy ===
/**
  The beacon-proximity page (Scenario1_BeaconProximity): it registers a
  background task, triggered by advertisements of the hub's service, under
  the name "Beacon_BackgroundTask", looks the task up again when the page is
  shown or the app resumes, and unregisters it on Stop. While the page is
  shown it listens to the task's Completed event.
 */
module BeaconProximity {
  import opened Base
  import AdvertisementTask

  const TASK_NAME: string := "Beacon_BackgroundTask"

  /** HResult of ERROR_NOT_SUPPORTED: the hardware cannot offload
      background advertisement watching. */
  const ERROR_NOT_SUPPORTED: nat := 0x8007_0032

  /** The service UUID the trigger's advertisement filter looks for. */
  const PERIPHERAL_SERVICE_UUID: string := "00001523-1212-efde-1523-785feabcd123"

  // ---------------------------------------------------------------------------
  // The trigger
  // ---------------------------------------------------------------------------

  datatype SignalStrengthFilter = SignalStrengthFilter(
    inRangeDbm: int, outOfRangeDbm: int, outOfRangeTimeoutMs: nat, samplingIntervalMs: nat)

  datatype Trigger = Trigger(serviceUuids: seq<string>, filter: SignalStrengthFilter)

  /** initBluetoothAdvertisementWatcherTrigger: one service-UUID filter, in
      range from -80 dBm, out of range below -90 dBm after 5 s, sampled every
      2 s. The in-range threshold lies below the task's motor threshold, so
      every advertisement that would spin the motor is in range. */
  function InitTrigger(): (t: Trigger)
    ensures |t.serviceUuids| == 1 && t.serviceUuids[0] == PERIPHERAL_SERVICE_UUID
    ensures t.filter.inRangeDbm == -80 && t.filter.outOfRangeDbm == -90
    ensures t.filter.inRangeDbm > t.filter.outOfRangeDbm
    ensures t.filter.outOfRangeTimeoutMs == 5000 && t.filter.samplingIntervalMs == 2000
    ensures AdvertisementTask.MIN_RSSI > t.filter.inRangeDbm
  {
    Trigger([PERIPHERAL_SERVICE_UUID], SignalStrengthFilter(-80, -90, 5000, 2000))
  }

  // ---------------------------------------------------------------------------
  // Registrations
  // ---------------------------------------------------------------------------

  /** A background task registration, as BackgroundTaskRegistration.AllTasks
      lists it. */
  datatype TaskRegistration = TaskRegistration(id: nat, name: string)

  /** The first registered task named TASK_NAME: the `foreach` over AllTasks
      that binds the first match and breaks. */
  function Lookup(tasks: seq<TaskRegistration>): (r: Option<TaskRegistration>)
    ensures r.Some? ==> r.value in tasks && r.value.name == TASK_NAME
    ensures r.Some? ==>
      exists i :: 0 <= i < |tasks| && tasks[i] == r.value && forall j :: 0 <= j < i ==> tasks[j].name != TASK_NAME
    ensures r.None? <==> forall i :: 0 <= i < |tasks| ==> tasks[i].name != TASK_NAME
  {
    if tasks == [] then None
    else if tasks[0].name == TASK_NAME then Some(tasks[0])
    else Lookup(tasks[1..])
  }

  /** How many registered tasks carry TASK_NAME. */
  function CountNamed(tasks: seq<TaskRegistration>): nat {
    if tasks == [] then 0 else (if tasks[0].name == TASK_NAME then 1 else 0) + CountNamed(tasks[1..])
  }

  /** An id no registered task has. */
  function FreshId(tasks: seq<TaskRegistration>): (id: nat)
    ensures forall i :: 0 <= i < |tasks| ==> tasks[i].id < id
  {
    if tasks == [] then 0
    else
      var later := FreshId(tasks[1..]);
      assert forall i :: 1 <= i < |tasks| ==> tasks[i].id < later by {
        forall i | 1 <= i < |tasks| ensures tasks[i].id < later {
          assert tasks[i] == tasks[1..][i - 1];
        }
      }
      if tasks[0].id < later then later else tasks[0].id + 1
  }

  /** `Unregister(true)`: the registration with that id leaves the list. */
  function Unregister(tasks: seq<TaskRegistration>, id: nat): (r: seq<TaskRegistration>)
    ensures forall i :: 0 <= i < |r| ==> r[i].id != id
    ensures forall t :: t in r <==> t in tasks && t.id != id
  {
    if tasks == [] then []
    else if tasks[0].id == id then Unregister(tasks[1..], id)
    else [tasks[0]] + Unregister(tasks[1..], id)
  }

  // ---------------------------------------------------------------------------
  // The page
  // ---------------------------------------------------------------------------

  /** Where the single page instance is: navigated away, shown, or shown
      but with the app suspended. */
  datatype Phase = Away | Shown | Suspended

  /** The page's registration field, the number of OnBackgroundTaskCompleted
      subscriptions on it, and the system's task list. Subscriptions left on
      a registration after it is unregistered can no longer fire and are not
      counted. */
  datatype World = World(phase: Phase, registration: Option<TaskRegistration>, handlers: nat,
                         tasks: seq<TaskRegistration>)

  datatype BackgroundAccessStatus =
    | Unspecified
    | AllowedWithAlwaysOnRealTimeConnectivity
    | AllowedMayUseActiveRealTimeConnectivity
    | Denied

  /** How `builder.Register()` ends. */
  datatype RegisterOutcome = Registers | Throws(hresult: nat)

  datatype Event =
    | NavigatedTo
    | NavigatedFrom
    | Suspending
    | Resuming
    | RunClicked(access: BackgroundAccessStatus, outcome: RegisterOutcome)
    | StopClicked

  /** The last status line the page shows. */
  datatype Notice =
    | Quiet
    | PressRun
    | AppSuspending
    | AlreadyRegistered
    | Registered
    | NoBackgroundAccess
    | NotSupported
    | Unregistered
    | NoneFound

  /** A handler either finishes, or rethrows out of an `async void` handler. */
  datatype StepResult = Continue(world: World, notice: Notice) | Crashed(hresult: nat)

  /** `taskRegistration.Completed += …`, after binding the first task named
      TASK_NAME when the field is null (OnNavigatedTo and App_Resuming). */
  function Attach(w: World): (r: World)
    ensures r.registration.Some? <==> w.registration.Some? || Lookup(w.tasks).Some?
    ensures w.registration.Some? ==> r.registration == w.registration && r.handlers == w.handlers + 1
    ensures w.registration.None? ==> r.registration == Lookup(w.tasks)
    ensures w.registration.None? && Lookup(w.tasks).Some? ==> r.handlers == w.handlers + 1
    ensures w.registration.None? && Lookup(w.tasks).None? ==> r.handlers == w.handlers
    ensures r.tasks == w.tasks && r.phase == w.phase
  {
    match w.registration
    case Some(_) => w.(handlers := w.handlers + 1)
    case None =>
      match Lookup(w.tasks)
      case Some(t) => w.(registration := Some(t), handlers := w.handlers + 1)
      case None => w
  }

  /** `taskRegistration.Completed -= …` when the field is set; removing a
      handler that is not subscribed does nothing. */
  function Detach(w: World): (r: World)
    ensures r.registration == w.registration && r.tasks == w.tasks && r.phase == w.phase
    ensures w.registration.Some? && w.handlers > 0 ==> r.handlers == w.handlers - 1
    ensures w.registration.None? || w.handlers == 0 ==> r.handlers == w.handlers
  {
    if w.registration.Some? && w.handlers > 0 then w.(handlers := w.handlers - 1) else w
  }

  /** One event. Events the page cannot receive in its current phase (it
      subscribes to Suspending and Resuming only while shown; buttons exist
      only while shown) change nothing. */
  function Step(w: World, e: Event): (r: StepResult)
    ensures r.Crashed? <==>
      w.phase == Shown && w.registration.None? && e.RunClicked? &&
      e.outcome.Throws? && e.outcome.hresult != ERROR_NOT_SUPPORTED
    ensures r.Continue? ==> r.world.tasks == w.tasks || e.RunClicked? || e.StopClicked?
  {
    match e
    case NavigatedTo =>
      if w.phase != Away then Continue(w, Quiet) else Continue(Attach(w).(phase := Shown), PressRun)
    case NavigatedFrom =>
      if w.phase != Shown then Continue(w, Quiet) else Continue(Detach(w).(phase := Away), Quiet)
    case Suspending =>
      if w.phase != Shown then Continue(w, Quiet) else Continue(Detach(w).(phase := Suspended), AppSuspending)
    case Resuming =>
      if w.phase != Suspended then Continue(w, Quiet) else Continue(Attach(w).(phase := Shown), Quiet)
    case RunClicked(access, outcome) =>
      if w.phase != Shown then Continue(w, Quiet)
      else if w.registration.Some? then Continue(w, AlreadyRegistered)
      else (
        match outcome
        case Registers =>
          var t := TaskRegistration(FreshId(w.tasks), TASK_NAME);
          var w' := w.(registration := Some(t), handlers := w.handlers + 1, tasks := w.tasks + [t]);
          Continue(w', if access == Denied || access == Unspecified then NoBackgroundAccess else Registered)
        case Throws(h) =>
          if h == ERROR_NOT_SUPPORTED then Continue(w, NotSupported) else Crashed(h))
    case StopClicked =>
      if w.phase != Shown then Continue(w, Quiet)
      else
        match w.registration
        case Some(t) => Continue(w.(registration := None, handlers := 0, tasks := Unregister(w.tasks, t.id)), Unregistered)
        case None => Continue(w, NoneFound)
  }

  // ---------------------------------------------------------------------------
  // The invariant
  // ---------------------------------------------------------------------------

  /** The page keeps exactly one Completed subscription while it is shown
      with a registration and none otherwise; the registration it holds is a
      live task named TASK_NAME; at most one such task exists; and while the
      page is up a null field means there is none to find. */
  predicate Inv(w: World) {
    w.handlers == (if w.phase == Shown && w.registration.Some? then 1 else 0) &&
    (w.registration.Some? ==> w.registration.value in w.tasks && w.registration.value.name == TASK_NAME) &&
    CountNamed(w.tasks) <= 1 &&
    (w.phase != Away && w.registration.None? ==> Lookup(w.tasks).None?)
  }

  /** The page starts away, with whatever tasks an earlier run left. */
  predicate Initial(w: World) {
    w.phase == Away && w.registration.None? && w.handlers == 0 && CountNamed(w.tasks) <= 1
  }

  lemma {:induction false} CountNamedNone(tasks: seq<TaskRegistration>)
    ensures CountNamed(tasks) == 0 <==> Lookup(tasks).None?
  {
    if tasks != [] {
      CountNamedNone(tasks[1..]);
    }
  }

  lemma {:induction false} CountNamedAppend(tasks: seq<TaskRegistration>, t: TaskRegistration)
    ensures CountNamed(tasks + [t]) == CountNamed(tasks) + (if t.name == TASK_NAME then 1 else 0)
  {
    if tasks != [] {
      assert (tasks + [t])[1..] == tasks[1..] + [t];
      CountNamedAppend(tasks[1..], t);
    }
  }

  /** Unregistering a named task leaves one named task fewer. */
  lemma {:induction false} CountNamedUnregister(tasks: seq<TaskRegistration>, t: TaskRegistration)
    requires t in tasks && t.name == TASK_NAME
    ensures CountNamed(Unregister(tasks, t.id)) < CountNamed(tasks)
  {
    if tasks[0] != t {
      assert t in tasks[1..];
      CountNamedUnregister(tasks[1..], t);
      CountNamedUnregisterAtMost(tasks[1..], t.id);
    } else {
      CountNamedUnregisterAtMost(tasks[1..], t.id);
    }
  }

  lemma {:induction false} CountNamedUnregisterAtMost(tasks: seq<TaskRegistration>, id: nat)
    ensures CountNamed(Unregister(tasks, id)) <= CountNamed(tasks)
  {
    if tasks != [] {
      CountNamedUnregisterAtMost(tasks[1..], id);
      if tasks[0].id != id {
        assert ([tasks[0]] + Unregister(tasks[1..], id))[1..] == Unregister(tasks[1..], id);
      }
    }
  }

  lemma StepPreservesInv(w: World, e: Event)
    requires Inv(w)
    requires Step(w, e).Continue?
    ensures Inv(Step(w, e).world)
  {
    var r := Step(w, e).world;
    CountNamedNone(w.tasks);
    match e {
      case RunClicked(access, outcome) =>
        if w.phase == Shown && w.registration.None? && outcome.Registers? {
          var t := TaskRegistration(FreshId(w.tasks), TASK_NAME);
          CountNamedAppend(w.tasks, t);
        }
      case StopClicked =>
        if w.phase == Shown && w.registration.Some? {
          CountNamedUnregister(w.tasks, w.registration.value);
          CountNamedNone(r.tasks);
        }
      case _ =>
    }
  }

  /** Events applied in order, stopping at a crash. */
  function Steps(w: World, es: seq<Event>): (r: StepResult)
    decreases |es|
  {
    if es == [] then Continue(w, Quiet)
    else
      match Step(w, es[0])
      case Crashed(h) => Crashed(h)
      case Continue(w', _) => Steps(w', es[1..])
  }

  /** However the page is navigated, suspended, resumed, run and stopped,
      Completed subscriptions never pile up: at most one at any time. */
  lemma {:induction false} NoHandlerLeak(w: World, es: seq<Event>)
    requires Inv(w)
    requires Steps(w, es).Continue?
    ensures Inv(Steps(w, es).world) && Steps(w, es).world.handlers <= 1
    decreases |es|
  {
    if es != [] {
      StepPreservesInv(w, es[0]);
      NoHandlerLeak(Step(w, es[0]).world, es[1..]);
    }
  }

  /** The page before it is first shown satisfies the invariant. */
  lemma InitialInv(w: World)
    requires Initial(w)
    ensures Inv(w)
  {
  }

  /** From the page's first appearance on, whatever happens, there is at most
      one Completed subscription. */
  lemma NoHandlerLeakFromStart(w: World, es: seq<Event>)
    requires Initial(w)
    requires Steps(w, es).Continue?
    ensures Steps(w, es).world.handlers <= 1
  {
    InitialInv(w);
    NoHandlerLeak(w, es);
  }

  // ---------------------------------------------------------------------------
  // Run and Stop
  // ---------------------------------------------------------------------------

  /** Run while a registration is held only says so. */
  lemma RunWhileRegistered(w: World, access: BackgroundAccessStatus, outcome: RegisterOutcome)
    requires w.phase == Shown && w.registration.Some?
    ensures Step(w, RunClicked(access, outcome)) == Continue(w, AlreadyRegistered)
  {
  }

  /** A successful registration leaves a live task with one subscription,
      whatever the access status; a denied or unspecified status only
      changes the message. */
  lemma RunRegisters(w: World, access: BackgroundAccessStatus)
    requires Inv(w) && w.phase == Shown && w.registration.None?
    ensures var r := Step(w, RunClicked(access, Registers));
            r.Continue? && r.world.registration.Some? && r.world.registration.value in r.world.tasks &&
            r.world.handlers == 1 &&
            (r.notice == NoBackgroundAccess <==> access == Denied || access == Unspecified)
  {
  }

  /** A failed registration leaves the page unregistered: ERROR_NOT_SUPPORTED
      is reported, anything else escapes. */
  lemma RunFails(w: World, access: BackgroundAccessStatus, h: nat)
    requires w.phase == Shown && w.registration.None?
    ensures h == ERROR_NOT_SUPPORTED ==> Step(w, RunClicked(access, Throws(h))) == Continue(w, NotSupported)
    ensures h != ERROR_NOT_SUPPORTED ==> Step(w, RunClicked(access, Throws(h))) == Crashed(h)
  {
  }

  /** Stop unregisters what is held and clears the field; a second Stop only
      reports that nothing is registered. */
  lemma StopTwice(w: World)
    requires Inv(w) && w.phase == Shown
    ensures var once := Step(w, StopClicked);
            once.Continue? && once.world.registration.None? &&
            Step(once.world, StopClicked) == Continue(once.world, NoneFound)
  {
  }

  /** Run then Stop from an unregistered page without subscriptions (as the
      invariant has it) puts the page and the task list back as they were. */
  lemma RunThenStop(w: World, access: BackgroundAccessStatus)
    requires w.phase == Shown && w.registration.None? && w.handlers == 0
    ensures var run := Step(w, RunClicked(access, Registers));
            run.Continue? && Step(run.world, StopClicked) == Continue(w, Unregistered)
  {
    var t := TaskRegistration(FreshId(w.tasks), TASK_NAME);
    var w' := w.(registration := Some(t), handlers := 1, tasks := w.tasks + [t]);
    RegisterStep(w, access);
    StopStep(w', t);
    UnregisterFresh(w.tasks, t);
    assert w'.(registration := None, handlers := 0, tasks := w.tasks) == w;
  }

  /** A successful Run from an unregistered shown page appends a fresh named
      task, binds it and subscribes once. */
  lemma RegisterStep(w: World, access: BackgroundAccessStatus)
    requires w.phase == Shown && w.registration.None?
    ensures var t := TaskRegistration(FreshId(w.tasks), TASK_NAME);
            var run := Step(w, RunClicked(access, Registers));
            run.Continue? &&
            run.world == w.(registration := Some(t), handlers := w.handlers + 1, tasks := w.tasks + [t])
  {
  }

  /** Stop on a shown registered page unregisters the bound task and drops
      the subscriptions. */
  lemma StopStep(w: World, t: TaskRegistration)
    requires w.phase == Shown && w.registration == Some(t)
    ensures Step(w, StopClicked) ==
      Continue(w.(registration := None, handlers := 0, tasks := Unregister(w.tasks, t.id)), Unregistered)
  {
  }

  lemma {:induction false} UnregisterFresh(tasks: seq<TaskRegistration>, t: TaskRegistration)
    requires forall i :: 0 <= i < |tasks| ==> tasks[i].id < t.id
    ensures Unregister(tasks + [t], t.id) == tasks
  {
    if tasks == [] {
      assert [t][1..] == [];
    } else {
      assert (tasks + [t])[1..] == tasks[1..] + [t];
      UnregisterFresh(tasks[1..], t);
    }
  }

  // ---------------------------------------------------------------------------
  // OnBackgroundTaskCompleted
  // ---------------------------------------------------------------------------

  /** The message the background task left in local settings, read only when
      the settings hold the task-name key. */
  function BackgroundMessage(settings: map<string, string>): (r: Option<string>)
    ensures r.Some? <==> TASK_NAME in settings
    ensures r.Some? ==> r.value == settings[TASK_NAME]
  {
    if TASK_NAME in settings then Some(settings[TASK_NAME]) else None
  }

  /** Only the task-name entry matters: settings that agree on it give the
      same message, whatever other keys they hold. */
  lemma BackgroundMessageReadsOnlyTaskKey(a: map<string, string>, b: map<string, string>)
    requires TASK_NAME in a <==> TASK_NAME in b
    requires TASK_NAME in a ==> a[TASK_NAME] == b[TASK_NAME]
    ensures BackgroundMessage(a) == BackgroundMessage(b)
  {
  }
}

=== FILE: device_list.dfy ===
/**
  The device list (ResultCollection) that both DeviceWatcher pages keep. The
  watcher handlers look entries up by Id with a `foreach` that acts on the
  first match and then `break`s, so every lookup here is "first entry with
  this Id".
 */
module DeviceList {
  import opened Base

  /** The part of a DeviceInformation the pages use. */
  datatype Device = Device(id: string, name: string, paired: bool)

  /** A DeviceInformationUpdate: the Id it is for and the properties that
      changed (None when a property did not change). */
  datatype DeviceUpdate = DeviceUpdate(id: string, name: Option<string>, paired: Option<bool>)

  /** DeviceInformation.Update: changed properties replace the old ones; the
      Id never changes. */
  function Apply(d: Device, u: DeviceUpdate): Device {
    Device(d.id,
           if u.name.Some? then u.name.value else d.name,
           if u.paired.Some? then u.paired.value else d.paired)
  }

  /** Position of the first entry with Id `id`, if any. */
  function FirstIndex(list: seq<Device>, id: string): (r: Option<nat>)
    ensures r.Some? ==> r.value < |list| && list[r.value].id == id
    ensures r.Some? ==> forall j :: 0 <= j < r.value ==> list[j].id != id
    ensures r.None? ==> forall j :: 0 <= j < |list| ==> list[j].id != id
  {
    if list == [] then None
    else if list[0].id == id then Some(0)
    else match FirstIndex(list[1..], id)
      case None => None
      case Some(i) => Some(i + 1)
  }

  /** The Removed handler: drops the first entry with the given Id, keeping
      every other entry in its order; a list without that Id is unchanged. */
  function RemoveFirst(list: seq<Device>, id: string): (r: seq<Device>)
    ensures |r| == if FirstIndex(list, id).Some? then |list| - 1 else |list|
    ensures FirstIndex(list, id).None? ==> r == list
    ensures FirstIndex(list, id).Some? ==>
      var i := FirstIndex(list, id).value;
      r == list[..i] + list[i + 1..]
  {
    if list == [] then []
    else if list[0].id == id then list[1..]
    else [list[0]] + RemoveFirst(list[1..], id)
  }

  /** The Updated handler: applies the update to the first entry with its Id
      and to nothing else; a list without that Id is unchanged. */
  function UpdateFirst(list: seq<Device>, u: DeviceUpdate): (r: seq<Device>)
    ensures |r| == |list|
    ensures forall j :: 0 <= j < |list| && FirstIndex(list, u.id) != Some(j) ==> r[j] == list[j]
    ensures FirstIndex(list, u.id).Some? ==>
      var i := FirstIndex(list, u.id).value;
      r[i] == Apply(list[i], u)
    ensures forall j :: 0 <= j < |list| ==> r[j].id == list[j].id
  {
    match FirstIndex(list, u.id)
    case None => list
    case Some(i) => list[i := Apply(list[i], u)]
  }

  /** How many entries carry Id `id`. */
  function CountId(list: seq<Device>, id: string): nat {
    if list == [] then 0 else (if list[0].id == id then 1 else 0) + CountId(list[1..], id)
  }

  /** Removal takes away exactly one entry with the Id when there is one, so
      duplicates of an Id need one Removed event each. */
  lemma {:induction false} RemoveFirstCount(list: seq<Device>, id: string)
    ensures CountId(RemoveFirst(list, id), id) == if CountId(list, id) > 0 then CountId(list, id) - 1 else 0
    ensures CountId(list, id) > 0 <==> FirstIndex(list, id).Some?
  {
    if list != [] && list[0].id != id {
      RemoveFirstCount(list[1..], id);
      assert ([list[0]] + RemoveFirst(list[1..], id))[1..] == RemoveFirst(list[1..], id);
    }
  }
}

=== FILE: framing.dfy ===
/**
  The RFCOMM message protocol between the sensor app (AvatarSensor) and the
  avatar app (BtAvatar). A message travels as a frame: a 4-byte unsigned
  length in the DataWriter's default big-endian order, then the message's
  UTF-8 bytes. The receiver reads frames until a read comes back short.
 */
module Framing {
  import opened Base
  import Utf8

  /** Bytes in the length prefix, `sizeof(uint)`. */
  const PREFIX_SIZE: nat := 4

  // ---------------------------------------------------------------------------
  // Sender
  // ---------------------------------------------------------------------------

  /** The frame the sender writes as the code stands: the prefix is
      `message.Length`, the number of UTF-16 code units, while the payload is
      the UTF-8 encoding. A C# string is at most int.MaxValue code units long. */
  function EncodeAsWritten(m: string): (b: seq<byte>)
    requires Utf8.Utf16Length(m) <= INT32_MAX
    ensures |b| == PREFIX_SIZE + |Utf8.Encode(m)|
    ensures BytesToUint32(b[..PREFIX_SIZE]) == Utf8.Utf16Length(m)
    ensures b[PREFIX_SIZE..] == Utf8.Encode(m)
  {
    Uint32ToBytes(Utf8.Utf16Length(m)) + Utf8.Encode(m)
  }

  /** The frame with the prefix the protocol needs: the number of payload
      bytes. This is the definition the rest of the model uses. */
  function Encode(m: string): (b: seq<byte>)
    requires Encodable(m)
    ensures |b| == PREFIX_SIZE + |Utf8.Encode(m)|
    ensures BytesToUint32(b[..PREFIX_SIZE]) == |Utf8.Encode(m)|
    ensures b[PREFIX_SIZE..] == Utf8.Encode(m)
  {
    Uint32ToBytes(|Utf8.Encode(m)|) + Utf8.Encode(m)
  }

  /** A message fits in a frame when its byte count fits the 32-bit prefix. */
  predicate Encodable(m: string) {
    |Utf8.Encode(m)| < UINT32_LIMIT
  }

  /** Frames for several messages written back to back on one socket. */
  function EncodeAll(ms: seq<string>): (b: seq<byte>)
    requires forall i :: 0 <= i < |ms| ==> Encodable(ms[i])
    ensures |b| >= 4 * |ms|
  {
    if ms == [] then [] else Encode(ms[0]) + EncodeAll(ms[1..])
  }

  /** For ASCII text the two prefixes coincide, so the frames the sender
      actually writes for ASCII messages are the intended ones. */
  lemma AsWrittenAgreesOnAscii(m: string)
    requires Utf8.IsAscii(m) && |m| <= INT32_MAX
    ensures EncodeAsWritten(m) == Encode(m)
  {
  }

  // ---------------------------------------------------------------------------
  // Receiver: one iteration of the read loop
  // ---------------------------------------------------------------------------

  /** What one iteration obtains from the remaining input: a short read (the
      peer closed before the requested bytes arrived), or a whole payload and
      the bytes after it. */
  datatype Read = ShortRead | Got(payload: seq<byte>, rest: seq<byte>)

  /** `LoadAsync(4)`, `ReadUInt32`, `LoadAsync(currentLength)`: a read is
      short exactly when fewer bytes remain than requested; otherwise the
      input is the encoding of the payload's length, the payload, and the
      rest, so a frame consumes exactly 4 + length bytes. */
  function ReadFrame(input: seq<byte>): (r: Read)
    ensures r.ShortRead? <==>
      |input| < PREFIX_SIZE || |input| - PREFIX_SIZE < BytesToUint32(input[..PREFIX_SIZE])
    ensures r.Got? ==> |r.payload| < UINT32_LIMIT
    ensures r.Got? ==> input == Uint32ToBytes(|r.payload|) + r.payload + r.rest
  {
    if |input| < PREFIX_SIZE then ShortRead
    else
      var length := BytesToUint32(input[..PREFIX_SIZE]);
      if |input| - PREFIX_SIZE < length then ShortRead
      else
        Uint32BytesRoundTrip(input[..PREFIX_SIZE]);
        assert input == input[..PREFIX_SIZE] + input[PREFIX_SIZE..PREFIX_SIZE + length] + input[PREFIX_SIZE + length..];
        Got(input[PREFIX_SIZE..PREFIX_SIZE + length], input[PREFIX_SIZE + length..])
  }

  /** What an iteration that read a whole payload hands on: the decoded text,
      or, when `ReadString` throws on bytes that are not UTF-8, nothing but the
      status the catch block writes before the loop goes round again. */
  datatype Item = Message(text: string) | Caught

  function ReadString(payload: seq<byte>): (item: Item)
    ensures item.Message? ==> Utf8.Encode(item.text) == payload
    ensures Utf8.Decode(payload).Some? ==> item.Message?
  {
    match Utf8.Decode(payload)
    case Some(s) => Message(s)
    case None => Caught
  }

  // ---------------------------------------------------------------------------
  // Receiver: the whole read loop
  // ---------------------------------------------------------------------------

  /** The `while (true)` loop of OnConnectionReceived over everything the peer
      sent before closing: one item per whole frame, in order; the loop leaves
      only on a short read, which the finite input always reaches. After a
      caught `ReadString` the next iteration starts after the payload: the
      bytes `LoadAsync(currentLength)` brought in are taken as consumed by
      the read that threw. */
  function ReadLoop(input: seq<byte>): (items: seq<Item>)
    ensures 4 * |items| <= |input|
    decreases |input|
  {
    match ReadFrame(input)
    case ShortRead => []
    case Got(payload, rest) => [ReadString(payload)] + ReadLoop(rest)
  }

  /** The items a receiver should hand on for messages `ms`. */
  function Messages(ms: seq<string>): (items: seq<Item>)
    ensures |items| == |ms|
  {
    if ms == [] then [] else [Message(ms[0])] + Messages(ms[1..])
  }

  // ---------------------------------------------------------------------------
  // Round trip and framing properties
  // ---------------------------------------------------------------------------

  /** A frame is read back as exactly its payload, leaving what follows it
      untouched: each frame consumes 4 + length bytes. */
  lemma ReadFrameEncode(m: string, rest: seq<byte>)
    requires Encodable(m)
    ensures ReadFrame(Encode(m) + rest) == Got(Utf8.Encode(m), rest)
  {
    var p := Utf8.Encode(m);
    var input := Encode(m) + rest;
    assert input[..PREFIX_SIZE] == Uint32ToBytes(|p|);
    assert input[PREFIX_SIZE..PREFIX_SIZE + |p|] == p;
    assert input[PREFIX_SIZE + |p|..] == rest;
  }

  /** The loop hands on a frame's message and then carries on after it. */
  lemma ReadLoopOneFrame(m: string, rest: seq<byte>)
    requires Encodable(m)
    ensures ReadLoop(Encode(m) + rest) == [Message(m)] + ReadLoop(rest)
  {
    ReadFrameEncode(m, rest);
    Utf8.DecodeEncode(m);
  }

  /** Back-to-back frames decode to their messages in order, and whatever
      follows them is read as if they had not been there. */
  lemma {:induction false} ReadLoopEncodeAll(ms: seq<string>, tail: seq<byte>)
    requires forall i :: 0 <= i < |ms| ==> Encodable(ms[i])
    ensures ReadLoop(EncodeAll(ms) + tail) == Messages(ms) + ReadLoop(tail)
  {
    if ms == [] {
      assert EncodeAll(ms) + tail == tail;
    } else {
      var later := ms[1..];
      EncodableLater(ms);
      var rest := EncodeAll(later) + tail;
      EncodeAllCons(ms, tail);
      ReadLoopOneFrame(ms[0], rest);
      ReadLoopEncodeAll(later, tail);
      AppendAssociative([Message(ms[0])], Messages(later), ReadLoop(tail));
    }
  }

  lemma EncodableLater(ms: seq<string>)
    requires ms != [] && forall i :: 0 <= i < |ms| ==> Encodable(ms[i])
    ensures forall i :: 0 <= i < |ms[1..]| ==> Encodable(ms[1..][i])
  {
    forall i | 0 <= i < |ms[1..]| ensures Encodable(ms[1..][i]) {
      assert ms[1..][i] == ms[i + 1];
    }
  }

  lemma EncodeAllCons(ms: seq<string>, tail: seq<byte>)
    requires ms != [] && forall i :: 0 <= i < |ms| ==> Encodable(ms[i])
    ensures EncodeAll(ms) + tail == Encode(ms[0]) + (EncodeAll(ms[1..]) + tail)
  {
    EncodableLater(ms);
    AppendAssociative(Encode(ms[0]), EncodeAll(ms[1..]), tail);
  }

  /** Decoding the sender's frames yields exactly the messages sent. */
  lemma RoundTrip(ms: seq<string>)
    requires forall i :: 0 <= i < |ms| ==> Encodable(ms[i])
    ensures ReadLoop(EncodeAll(ms)) == Messages(ms)
  {
    ReadLoopEncodeAll(ms, []);
    assert EncodeAll(ms) + [] == EncodeAll(ms);
  }

  /** Any strict prefix of a frame is a short read: the loop stops without
      handing on a partial message. */
  lemma TruncatedFrameDeliversNothing(m: string, k: nat)
    requires Encodable(m) && k < |Encode(m)|
    ensures ReadLoop(Encode(m)[..k]) == []
  {
    var cut := Encode(m)[..k];
    if k >= PREFIX_SIZE {
      assert cut[..PREFIX_SIZE] == Uint32ToBytes(|Utf8.Encode(m)|);
    }
  }

  /** A connection that drops in the middle of a frame delivers exactly the
      whole frames before it. */
  lemma DroppedConnection(ms: seq<string>, m: string, k: nat)
    requires forall i :: 0 <= i < |ms| ==> Encodable(ms[i])
    requires Encodable(m) && k < |Encode(m)|
    ensures ReadLoop(EncodeAll(ms) + Encode(m)[..k]) == Messages(ms)
  {
    ReadLoopEncodeAll(ms, Encode(m)[..k]);
    TruncatedFrameDeliversNothing(m, k);
  }

  /** A whole frame whose payload is not UTF-8 costs exactly its own item:
      the catch block reports it and the loop carries on at the next frame,
      taking the payload's bytes as used up by the failed read. */
  lemma CaughtFrameContinues(p: seq<byte>, rest: seq<byte>)
    requires |p| < UINT32_LIMIT && Utf8.Decode(p).None?
    ensures ReadLoop(Uint32ToBytes(|p|) + p + rest) == [Caught] + ReadLoop(rest)
  {
  }

  /** A zero prefix passes the length check (0 < 0 is false) and yields the
      empty message; the loop then carries on after those four bytes. */
  lemma ZeroLengthFrame(rest: seq<byte>)
    ensures ReadLoop([0, 0, 0, 0] + rest) == [Message("")] + ReadLoop(rest)
  {
    var input := [0, 0, 0, 0] + rest;
    assert input[..PREFIX_SIZE] == [0, 0, 0, 0];
    assert input[PREFIX_SIZE..PREFIX_SIZE] == [];
    assert input[PREFIX_SIZE..] == rest;
  }

  // ---------------------------------------------------------------------------
  // The sender's prefix as written
  // ---------------------------------------------------------------------------

  /** Whenever the UTF-16 length differs from the UTF-8 byte count, the frame
      as written is not read back as the message's bytes. */
  lemma AsWrittenMisframes(m: string, rest: seq<byte>)
    requires Utf8.Utf16Length(m) <= INT32_MAX
    requires Utf8.Utf16Length(m) != |Utf8.Encode(m)|
    ensures ReadFrame(EncodeAsWritten(m) + rest) != Got(Utf8.Encode(m), rest)
  {
    var input := EncodeAsWritten(m) + rest;
    assert input[..PREFIX_SIZE] == Uint32ToBytes(Utf8.Utf16Length(m));
  }

  /** "é" (one UTF-16 code unit, two UTF-8 bytes) followed by "Walking": the
      receiver reads one byte of "é", fails to decode it, then (the failed
      read having used up that byte) takes the second byte of "é" and three
      bytes of the next prefix as a length of 0xA9000000 and stops. Neither
      message is delivered. */
  lemma AsWrittenLosesMessages()
    ensures ReadLoop(EncodeAsWritten("\U{E9}") + EncodeAsWritten("Walking")) == [Caught]
  {
    AsWrittenSmallEAcute();
    AsWrittenAsciiPrefix("Walking");
    ReadAfterSmallEAcute(EncodeAsWritten("Walking"));
  }

  lemma AsWrittenSmallEAcute()
    ensures EncodeAsWritten("\U{E9}") == [0, 0, 0, 1, 0xC3, 0xA9]
  {
    var e := "\U{E9}";
    assert Utf8.Utf16Length(e) == 1;
    assert Utf8.Encode(e) == [0xC3, 0xA9];
  }

  /** The frame as written for a 7-character ASCII message: 11 bytes, the
      first four being the prefix 7. */
  lemma AsWrittenAsciiPrefix(m: string)
    requires m == "Walking"
    ensures |EncodeAsWritten(m)| == 11 && EncodeAsWritten(m)[..PREFIX_SIZE] == [0, 0, 0, 7]
  {
    assert Utf8.IsAscii(m) && |m| == 7;
    var b := EncodeAsWritten(m);
    assert b[..PREFIX_SIZE] == Uint32ToBytes(7);
  }

  lemma ReadAfterSmallEAcute(next: seq<byte>)
    requires |next| == 11 && next[..PREFIX_SIZE] == [0, 0, 0, 7]
    ensures ReadLoop([0, 0, 0, 1, 0xC3, 0xA9] + next) == [Caught]
  {
    var input := [0, 0, 0, 1, 0xC3, 0xA9] + next;
    assert input[..PREFIX_SIZE] == [0, 0, 0, 1];
    var rest := input[PREFIX_SIZE + 1..];
    assert input[PREFIX_SIZE..PREFIX_SIZE + 1] == [0xC3];
    assert ReadFrame(input) == Got([0xC3], rest);
    assert Utf8.DecodeFirst([0xC3]) == None;
    assert rest[..PREFIX_SIZE] == [0xA9, 0, 0, 0];
    assert |rest| == 12;
    assert ReadFrame(rest) == ShortRead;
  }
}

=== FILE: in_app_gatt.dfy ===
/**
  The in-app GATT page (BluetoothInAppGATT, Scenario1_InAppGATT): a watcher
  lists Bluetooth LE devices, the user pairs or unpairs the selected one,
  and once the hub's I/O service is found on a paired device the Forward,
  Stop and Backward buttons write motor commands to it.
 */
module InAppGatt {
  import opened Base
  import DeviceList
  import LegoMotor

  // ---------------------------------------------------------------------------
  // Watchers
  // ---------------------------------------------------------------------------

  /** DeviceWatcherStatus. */
  datatype WatcherStatus = Created | Started | EnumerationCompleted | Stopping | Stopped | Aborted

  /** The states in which the page calls `Stop()`; stopping a watcher in any
      other state would throw. */
  predicate Stoppable(s: WatcherStatus) {
    s == Started || s == EnumerationCompleted
  }

  /** The outcome of a guarded stop: the watcher afterwards (None for a null
      field) and whether `Stop()` was called. */
  datatype StopResult = StopResult(watcher: Option<WatcherStatus>, stopCalled: bool)

  /** The guard StopBleDeviceWatcher and StopGattServiceWatcher share: a null
      watcher is left alone, and `Stop()` is called only in a stoppable state,
      which then becomes Stopping. */
  function StopWatcher(w: Option<WatcherStatus>): (r: StopResult)
    ensures r.stopCalled <==> w.Some? && Stoppable(w.value)
    ensures r.stopCalled ==> r.watcher == Some(Stopping)
    ensures !r.stopCalled ==> r.watcher == w
    ensures r.watcher.None? <==> w.None?
    ensures r.watcher.Some? ==> !Stoppable(r.watcher.value)
  {
    match w
    case Some(s) => if Stoppable(s) then StopResult(Some(Stopping), true) else StopResult(w, false)
    case None => StopResult(None, false)
  }

  /** Stopping twice calls `Stop()` at most once. */
  lemma StopWatcherTwice(w: Option<WatcherStatus>)
    ensures StopWatcher(StopWatcher(w).watcher) == StopResult(StopWatcher(w).watcher, false)
  {
  }

  // ---------------------------------------------------------------------------
  // The device list and its watcher
  // ---------------------------------------------------------------------------

  /** The device-watcher part of the page: the list, the watcher and the
      Start/Stop watcher buttons. */
  datatype Scanner = Scanner(list: seq<DeviceList.Device>, watcher: Option<WatcherStatus>,
                             startEnabled: bool, stopEnabled: bool)

  /** StartWatcherButton_Click then StartBleDeviceWatcher: the Start button
      greys out, Stop enables, the list is cleared and a new watcher starts.
      The field is overwritten without stopping the watcher it held, so the
      page is left with a watcher that Stop can always stop. */
  function StartClicked(s: Scanner): (r: Scanner)
    ensures r.list == [] && r.watcher.Some? && Stoppable(r.watcher.value)
    ensures StopWatcher(r.watcher).stopCalled
    ensures !r.startEnabled && r.stopEnabled
  {
    Scanner([], Some(Started), false, true)
  }

  /** StopBleDeviceWatcher: the Stop button greys out, the watcher is stopped
      through the guard, Start enables again; the list stays. */
  function StopBleDeviceWatcher(s: Scanner): (r: Scanner)
    ensures r.list == s.list && r.startEnabled && !r.stopEnabled
    ensures r.watcher == StopWatcher(s.watcher).watcher
    ensures r.watcher.Some? ==> !Stoppable(r.watcher.value)
  {
    Scanner(s.list, StopWatcher(s.watcher).watcher, true, false)
  }

  /** Start then Stop calls `Stop()` exactly once, whatever the page held
      before: the first stop calls it and a second one does not. The buttons
      end as before any start, Start enabled and Stop disabled, and the list
      is empty. */
  lemma StartThenStop(s: Scanner)
    ensures var started := StartClicked(s);
            var stopped := StopBleDeviceWatcher(started);
            StopWatcher(started.watcher).stopCalled &&
            !StopWatcher(stopped.watcher).stopCalled &&
            stopped.startEnabled && !stopped.stopEnabled && stopped.list == [] &&
            stopped.watcher == Some(Stopping)
  {
  }

  lemma StopBleDeviceWatcherIdempotent(s: Scanner)
    ensures StopBleDeviceWatcher(StopBleDeviceWatcher(s)) == StopBleDeviceWatcher(s)
  {
  }

  /** Events of the LE device watcher. */
  datatype DeviceEvent =
    | Added(info: DeviceList.Device)
    | Updated(update: DeviceList.DeviceUpdate)
    | Removed(id: string)
    | EnumerationDone
    | WatcherStopped

  /** What a handler leaves: the list, the "{0} devices found" count it
      reports (None when it reports nothing), and whether it refreshed the
      buttons. */
  datatype Listed = Listed(list: seq<DeviceList.Device>, reported: Option<nat>, refresh: bool)

  /** The LE watcher's handlers. `selected` is the list index of the item
      selected in the list view when the event arrives; Updated refreshes the
      buttons only when the entry it changed is that item. Unlike the sensor
      app, Added keeps unnamed devices and Stopped keeps the list. */
  function OnDeviceEvent(list: seq<DeviceList.Device>, selected: Option<nat>, e: DeviceEvent): (r: Listed)
    ensures e.Added? ==> r.list == list + [e.info]
    ensures e.Updated? ==> r.list == DeviceList.UpdateFirst(list, e.update)
    ensures e.Removed? ==> r.list == DeviceList.RemoveFirst(list, e.id)
    ensures !(e.Added? || e.Updated? || e.Removed?) ==> r.list == list
    ensures r.reported.Some? ==> r.reported.value == |r.list|
    ensures r.reported.None? <==> e.Updated?
    ensures r.refresh <==> e.Updated? && selected.Some? && DeviceList.FirstIndex(list, e.update.id) == selected
  {
    match e
    case Added(info) => Listed(list + [info], Some(|list| + 1), false)
    case Updated(u) =>
      var i := DeviceList.FirstIndex(list, u.id);
      Listed(DeviceList.UpdateFirst(list, u), None, i.Some? && i == selected)
    case Removed(id) =>
      var after := DeviceList.RemoveFirst(list, id);
      Listed(after, Some(|after|), false)
    case EnumerationDone => Listed(list, Some(|list|), false)
    case WatcherStopped => Listed(list, Some(|list|), false)
  }

  /** Removing by Id shortens the list by one exactly when some entry has
      that Id, so the count reported after Removed drops by one or stays. */
  lemma RemovedCount(list: seq<DeviceList.Device>, selected: Option<nat>, id: string)
    ensures var r := OnDeviceEvent(list, selected, Removed(id));
            r.reported == Some(if DeviceList.FirstIndex(list, id).Some? then |list| - 1 else |list|)
  {
  }

  // ---------------------------------------------------------------------------
  // UpdateButtons and the button handlers
  // ---------------------------------------------------------------------------

  datatype Buttons = Buttons(forward: bool, stop: bool, backward: bool, pair: bool, unpair: bool)

  /** The button panel and the GATT service watcher. */
  datatype Controls = Controls(buttons: Buttons, serviceWatcher: Option<WatcherStatus>, listEnabled: bool)

  predicate MotorsEnabled(b: Buttons) {
    b.forward || b.stop || b.backward
  }

  /** UpdateButtons for the selected device (None when nothing is selected):
      the motor buttons always grey out; Pair enables for an unpaired
      selection and Unpair for a paired one; an existing service watcher is
      stopped through the guard, and a new one starts for a paired
      selection. */
  function UpdateButtons(c: Controls, selected: Option<DeviceList.Device>): (r: Controls)
    ensures !MotorsEnabled(r.buttons)
    ensures r.buttons.pair <==> selected.Some? && !selected.value.paired
    ensures r.buttons.unpair <==> selected.Some? && selected.value.paired
    ensures r.buttons.unpair ==> r.serviceWatcher == Some(Started)
    ensures !r.buttons.unpair ==> r.serviceWatcher == StopWatcher(c.serviceWatcher).watcher
    ensures r.listEnabled == c.listEnabled
  {
    var pair := selected.Some? && !selected.value.paired;
    var unpair := selected.Some? && selected.value.paired;
    var stopped := if c.serviceWatcher.Some? then StopWatcher(c.serviceWatcher).watcher else c.serviceWatcher;
    var watcher := if selected.Some? && selected.value.paired then Some(Started) else stopped;
    Controls(Buttons(false, false, false, pair, unpair), watcher, c.listEnabled)
  }

  /** Pair and Unpair are never offered together, and nothing is offered
      without a selection. */
  lemma PairUnpairExclusive(c: Controls, selected: Option<DeviceList.Device>)
    ensures !(UpdateButtons(c, selected).buttons.pair && UpdateButtons(c, selected).buttons.unpair)
    ensures selected.None? ==> !UpdateButtons(c, selected).buttons.pair && !UpdateButtons(c, selected).buttons.unpair
  {
  }

  /** The events that change the panel. A pairing or unpairing finishes with
      UpdateButtons on the selection as it then stands. */
  datatype UiEvent =
    | SelectionChanged(selected: Option<DeviceList.Device>)
    | PairClicked
    | PairCompleted(selected: Option<DeviceList.Device>)
    | UnpairClicked
    | UnpairCompleted(selected: Option<DeviceList.Device>)
    | ServiceAdded

  function OnUiEvent(c: Controls, e: UiEvent): (r: Controls)
    ensures e.ServiceAdded? ==> r.buttons == c.buttons.(forward := true, stop := true, backward := true)
    ensures e.PairClicked? ==> r == c.(buttons := c.buttons.(pair := false), listEnabled := false)
    ensures e.UnpairClicked? ==> r == c.(buttons := c.buttons.(unpair := false), listEnabled := false)
    ensures e.SelectionChanged? ==> r == UpdateButtons(c, e.selected)
    ensures (e.PairCompleted? || e.UnpairCompleted?) ==> r == UpdateButtons(c, e.selected).(listEnabled := true)
  {
    match e
    case SelectionChanged(sel) => UpdateButtons(c, sel)
    case PairClicked => c.(buttons := c.buttons.(pair := false), listEnabled := false)
    case PairCompleted(sel) => UpdateButtons(c, sel).(listEnabled := true)
    case UnpairClicked => c.(buttons := c.buttons.(unpair := false), listEnabled := false)
    case UnpairCompleted(sel) => UpdateButtons(c, sel).(listEnabled := true)
    case ServiceAdded => c.(buttons := c.buttons.(forward := true, stop := true, backward := true))
  }

  /** What the panel keeps true: the three motor buttons move together, and
      Pair and Unpair are never both offered. */
  predicate PanelInv(c: Controls) {
    c.buttons.forward == c.buttons.stop == c.buttons.backward && !(c.buttons.pair && c.buttons.unpair)
  }

  /** Every event keeps the panel invariant, and only the service watcher's
      Added handler turns the motor buttons on. */
  lemma OnUiEventKeepsPanel(c: Controls, e: UiEvent)
    requires PanelInv(c)
    ensures PanelInv(OnUiEvent(c, e))
    ensures !MotorsEnabled(c.buttons) && MotorsEnabled(OnUiEvent(c, e).buttons) ==> e.ServiceAdded?
  {
  }

  /** What a motor button writes to the output-command characteristic. */
  datatype MotorButton = ForwardButton | StopButton | BackwardButton

  function MotorButtonBytes(b: MotorButton): (bytes: seq<byte>)
    ensures LegoMotor.Decode(bytes).Some?
    ensures LegoMotor.Decode(bytes).value.power ==
      match b
      case ForwardButton => LegoMotor.FULL_FORWARD
      case StopButton => LegoMotor.FULL_STOP
      case BackwardButton => LegoMotor.FULL_BACKWARD
  {
    LegoMotor.ButtonCommands();
    match b
    case ForwardButton => LegoMotor.FORWARD_BYTES
    case StopButton => LegoMotor.STOP_BYTES
    case BackwardButton => LegoMotor.BACKWARD_BYTES
  }

  // ---------------------------------------------------------------------------
  // GeneralPropertyValueConverter.Convert
  // ---------------------------------------------------------------------------

  /** The binding source: a property dictionary, or anything else. */
  datatype Value<T> = Dictionary(properties: map<string, T>) | OtherValue

  /** The converter parameter: a string, null, or an object of another type. */
  datatype Parameter = TextParameter(text: string) | NullParameter | OtherParameter

  /** The result: null, the property's value, or the KeyNotFoundException the
      dictionary indexer throws for a missing name. */
  datatype Converted<T> = NullResult | Property(value: T) | KeyNotFound

  function Convert<T>(value: Value<T>, parameter: Parameter): (r: Converted<T>)
    ensures r.NullResult? <==> !(value.Dictionary? && parameter.TextParameter? && parameter.text != "")
    ensures r.KeyNotFound? <==>
      value.Dictionary? && parameter.TextParameter? && parameter.text != "" && parameter.text !in value.properties
    ensures r.Property? ==>
      parameter.TextParameter? && value.Dictionary? &&
      parameter.text in value.properties && r.value == value.properties[parameter.text]
  {
    if value.Dictionary? && parameter.TextParameter? && parameter.text != "" then
      if parameter.text in value.properties then Property(value.properties[parameter.text]) else KeyNotFound
    else NullResult
  }

  /** The converter looks at one entry only: dictionaries that agree on the
      key give the same result, whatever else they hold. */
  lemma ConvertReadsOnlyKey<T>(a: map<string, T>, b: map<string, T>, key: string)
    requires key in a <==> key in b
    requires key in a ==> a[key] == b[key]
    ensures Convert(Dictionary(a), TextParameter(key)) == Convert(Dictionary(b), TextParameter(key))
  {
  }
}

=== FILE: legomotor.dfy ===
/**
  The command the LEGO WeDo hub's output-command characteristic takes to set
  a motor's power: `[connectId, commandId, size, data...]`, where commandId 1
  writes motor power, size counts the data bytes after it, and the one data
  byte is the power as a two's-complement signed byte (-100 full backward,
  0 stop, 100 full forward). The in-app GATT page and the background task
  both write it.
 */
module LegoMotor {
  import opened Base

  /** The hub port the motor is attached to. */
  const CONNECT_ID: byte := 1
  /** commandId 1: write motor power. */
  const WRITE_MOTOR_POWER: byte := 1

  const FULL_FORWARD: int := 100
  const FULL_STOP: int := 0
  const FULL_BACKWARD: int := -100

  datatype MotorCommand = MotorCommand(connectId: byte, commandId: byte, power: int)

  predicate Valid(c: MotorCommand) {
    IsInt8(c.power)
  }

  /** The bytes of a motor-power command: a one-byte payload whose size field
      says so, the power in two's complement. */
  function Encode(c: MotorCommand): (b: seq<byte>)
    requires Valid(c)
    ensures |b| == 4 && b[2] == |b| - 3
    ensures b[0] == c.connectId && b[1] == c.commandId
    ensures AsInt8(b[3]) == c.power
  {
    Int8RoundTrip(c.power);
    [c.connectId, c.commandId, 1, FromInt8(c.power)]
  }

  /** Reads a motor-power command back: None unless the size field matches
      the single power byte that follows it. */
  function Decode(b: seq<byte>): (r: Option<MotorCommand>)
    ensures r.Some? <==> |b| == 4 && b[2] == 1
    ensures r.Some? ==> Valid(r.value) && Encode(r.value) == b
  {
    if |b| == 4 && b[2] == 1 then Some(MotorCommand(b[0], b[1], AsInt8(b[3])))
    else None
  }

  lemma DecodeEncode(c: MotorCommand)
    requires Valid(c)
    ensures Decode(Encode(c)) == Some(c)
  {
  }

  /** The byte arrays the Forward, Stop and Backward buttons (and, for
      Forward, the background task) write, as the source spells them. */
  const FORWARD_BYTES: seq<byte> := [1, 1, 1, 100]
  const STOP_BYTES: seq<byte> := [1, 1, 1, 0]
  const BACKWARD_BYTES: seq<byte> := [1, 1, 1, 0x9C]

  /** The literal arrays are motor-power commands on port 1 at +100, 0 and
      -100: 0x9C is -100 in two's complement, so Backward is the exact
      negation of Forward. */
  lemma ButtonCommands()
    ensures Decode(FORWARD_BYTES) == Some(MotorCommand(CONNECT_ID, WRITE_MOTOR_POWER, FULL_FORWARD))
    ensures Decode(STOP_BYTES) == Some(MotorCommand(CONNECT_ID, WRITE_MOTOR_POWER, FULL_STOP))
    ensures Decode(BACKWARD_BYTES) == Some(MotorCommand(CONNECT_ID, WRITE_MOTOR_POWER, FULL_BACKWARD))
    ensures FULL_BACKWARD == -FULL_FORWARD
  {
    assert AsInt8(0x9C) == -100;
  }
}

=== FILE: sdp.dfy ===
/**
  The ServiceName attribute the avatar app puts in its SDP record
  (InitializeServiceSdpAttributes). An SDP data element starts with a header
  byte whose high five bits are the type descriptor and whose low three bits
  are the size index (Bluetooth Core Specification, Volume 3, Part B,
  sections 3.2 and 3.3). Type 4 is a text string; size index 5 means the
  data length follows in one byte.
 */
module Sdp {
  import opened Base
  import Utf8

  /** Attribute id of ServiceName, `SdpServiceNameAttributeId`. */
  const SERVICE_NAME_ATTRIBUTE_ID: nat := 0x100

  const TEXT_STRING_TYPE: nat := 4
  const SIZE_INDEX_8BIT_LENGTH: nat := 5

  /** `SdpServiceNameAttributeType`, `(4 << 3) | 5`. */
  const SERVICE_NAME_ATTRIBUTE_TYPE: byte := 0x25

  const SERVICE_NAME: string := "Sensor Avatar Service"

  /** The bytes the DataWriter holds: the header, `(byte)name.Length` (C#'s
      unchecked cast keeps the low eight bits of the UTF-16 length), then the
      UTF-8 name. */
  function ServiceNameAttribute(name: string): (b: seq<byte>)
    ensures |b| == 2 + |Utf8.Encode(name)|
    ensures b[0] / 8 == TEXT_STRING_TYPE && b[0] % 8 == SIZE_INDEX_8BIT_LENGTH
    ensures b[1] == Utf8.Utf16Length(name) % 0x100
    ensures b[2..] == Utf8.Encode(name)
  {
    [SERVICE_NAME_ATTRIBUTE_TYPE, Utf8.Utf16Length(name) % 0x100] + Utf8.Encode(name)
  }

  /** A reader of one SDP text-string data element with an 8-bit length: the
      text, or None when the header is different, the length byte disagrees
      with the bytes that follow, or those bytes are not UTF-8. */
  function ParseTextElement(b: seq<byte>): (r: Option<string>)
    ensures r.Some? ==> |b| >= 2 && b[1] == |b| - 2 && Utf8.Encode(r.value) == b[2..]
  {
    if |b| < 2 || b[0] / 8 != TEXT_STRING_TYPE || b[0] % 8 != SIZE_INDEX_8BIT_LENGTH || b[1] != |b| - 2 then None
    else Utf8.Decode(b[2..])
  }

  /** For ASCII names shorter than 256 characters the length byte is the
      payload's byte count, and a reader gets the name back. */
  lemma ServiceNameRoundTrip(name: string)
    requires Utf8.IsAscii(name) && |name| < 0x100
    ensures ServiceNameAttribute(name)[..2] == [SERVICE_NAME_ATTRIBUTE_TYPE, |name|]
    ensures ParseTextElement(ServiceNameAttribute(name)) == Some(name)
  {
    var b := ServiceNameAttribute(name);
    assert b[2..] == Utf8.Encode(name);
    Utf8.DecodeEncode(name);
  }

  lemma ShortAsciiNameParses(name: string)
    ensures Utf8.IsAscii(name) && |name| < 0x100 ==>
      ParseTextElement(ServiceNameAttribute(name)) == Some(name)
  {
    if Utf8.IsAscii(name) && |name| < 0x100 {
      ServiceNameRoundTrip(name);
    }
  }

  /** The length byte counts UTF-16 code units modulo 256, not payload bytes:
      whenever the two differ, as they do for a short name with a non-ASCII
      character, a reader rejects the record. */
  lemma ServiceNameMisframed(name: string)
    requires Utf8.Utf16Length(name) % 0x100 != |Utf8.Encode(name)|
    ensures ParseTextElement(ServiceNameAttribute(name)).None?
  {
    var b := ServiceNameAttribute(name);
    assert b[1] != |b| - 2;
  }

  /** "Sensor Avatar Service" is 21 ASCII characters. */
  lemma ServiceNameIsAscii(name: string)
    requires name == SERVICE_NAME
    ensures |name| == 21 && Utf8.IsAscii(name)
  {
    assert Utf8.IsAscii(name);
  }

  /** InitializeServiceSdpAttributes, with the service name as a parameter:
      `SdpRawAttributes.Add` files the record under
      SERVICE_NAME_ATTRIBUTE_ID. Add throws when the provider already holds
      that id (None); otherwise every other attribute stays as it was. */
  function InitializeServiceSdpAttributes(attrs: map<nat, seq<byte>>, name: string): (r: Option<map<nat, seq<byte>>>)
    ensures r.Some? <==> SERVICE_NAME_ATTRIBUTE_ID !in attrs
    ensures r.Some? ==> r.value.Keys == attrs.Keys + {SERVICE_NAME_ATTRIBUTE_ID}
    ensures r.Some? ==> forall id :: id in attrs ==> r.value[id] == attrs[id]
    ensures r.Some? ==> r.value[SERVICE_NAME_ATTRIBUTE_ID] == ServiceNameAttribute(name)
    ensures r.Some? && Utf8.IsAscii(name) && |name| < 0x100 ==>
      ParseTextElement(r.value[SERVICE_NAME_ATTRIBUTE_ID]) == Some(name)
  {
    if SERVICE_NAME_ATTRIBUTE_ID in attrs then None
    else
      ShortAsciiNameParses(name);
      Some(attrs[SERVICE_NAME_ATTRIBUTE_ID := ServiceNameAttribute(name)])
  }

  /** The record the avatar publishes under attribute 0x0100 is the header,
      21, and the 21 ASCII bytes of "Sensor Avatar Service". */
  lemma AvatarServiceName()
    ensures |SERVICE_NAME| == 21 && Utf8.IsAscii(SERVICE_NAME)
    ensures ServiceNameAttribute(SERVICE_NAME)[..2] == [0x25, 21]
    ensures ParseTextElement(ServiceNameAttribute(SERVICE_NAME)) == Some(SERVICE_NAME)
  {
    ServiceNameIsAscii(SERVICE_NAME);
    ServiceNameRoundTrip(SERVICE_NAME);
  }

  /** On a provider with no ServiceName yet, the avatar's record lands under
      0x0100 and reads back as "Sensor Avatar Service". */
  lemma AvatarSdpAttributes(attrs: map<nat, seq<byte>>, name: string)
    requires name == SERVICE_NAME && SERVICE_NAME_ATTRIBUTE_ID !in attrs
    ensures var r := InitializeServiceSdpAttributes(attrs, name);
            r.Some? && ParseTextElement(r.value[0x100]) == Some(name)
  {
    ServiceNameIsAscii(name);
  }
}

=== FILE: sensor.dfy ===
/**
  The sensor app (AvatarSensor/MainPage.xaml.cs): it lists nearby devices,
  connects to the avatar's RFCOMM service, and sends activity names as
  framed messages, either from the activity sensor or from a toggle button.
 */
module Sensor {
  import opened Base
  import Utf8
  import Framing
  import DeviceList

  // ---------------------------------------------------------------------------
  // SendMessage
  // ---------------------------------------------------------------------------

  /** What one SendMessage call does to the chat writer: the bytes stored on
      the socket, how many StoreAsync flushes it made, and whether the catch
      block reported an error (the writer is null until a connection exists). */
  datatype Sent = Sent(bytes: seq<byte>, stores: nat, failed: bool)

  /** SendMessage: an empty message writes nothing; otherwise one frame, with
      the UTF-16 length as its prefix, and one flush, or, with no writer yet,
      an error status and nothing sent. The receiver reads the frame back as
      the message exactly when the message is ASCII: any other character
      makes the UTF-16 length fall short of the UTF-8 byte count. */
  function SendMessage(writerReady: bool, m: string): (r: Sent)
    requires Utf8.Utf16Length(m) <= INT32_MAX
    ensures m == "" ==> r == Sent([], 0, false)
    ensures m != "" && writerReady ==> r.stores == 1 && !r.failed && r.bytes == Framing.EncodeAsWritten(m)
    ensures m != "" && writerReady && Utf8.IsAscii(m) ==> Framing.ReadLoop(r.bytes) == [Framing.Message(m)]
    ensures m != "" && writerReady && !Utf8.IsAscii(m) ==>
      Framing.ReadFrame(r.bytes) != Framing.Got(Utf8.Encode(m), [])
    ensures !writerReady ==> r.bytes == [] && r.stores == 0 && r.failed == (m != "")
  {
    if m == "" then Sent([], 0, false)
    else if !writerReady then Sent([], 0, true)
    else
      AsWrittenFrameRead(m);
      Sent(Framing.EncodeAsWritten(m), 1, false)
  }

  /** How the receiver takes the frame written for `m` alone on the stream. */
  lemma AsWrittenFrameRead(m: string)
    requires Utf8.Utf16Length(m) <= INT32_MAX
    ensures Utf8.IsAscii(m) ==> Framing.ReadLoop(Framing.EncodeAsWritten(m)) == [Framing.Message(m)]
    ensures !Utf8.IsAscii(m) ==>
      Framing.ReadFrame(Framing.EncodeAsWritten(m)) != Framing.Got(Utf8.Encode(m), [])
  {
    var b := Framing.EncodeAsWritten(m);
    assert b + [] == b;
    if Utf8.IsAscii(m) {
      Framing.AsWrittenAgreesOnAscii(m);
      Framing.ReadLoopOneFrame(m, []);
    }
    if !Utf8.IsAscii(m) {
      Utf8.Utf16BelowUtf8(m);
      Framing.AsWrittenMisframes(m, []);
    }
  }

  // ---------------------------------------------------------------------------
  // MessageToggle_Click
  // ---------------------------------------------------------------------------

  /** The message the toggle sends for a click counter value, chosen by C#'s
      `clickNum % 3`; only a negative counter reaches the "Car" default. */
  function ToggleMessage(clickNum: int): (m: string)
    requires IsInt32(clickNum)
    ensures clickNum >= 0 ==> m == ["Walking", "Running", "Stationary"][clickNum % 3]
    ensures clickNum % 3 == 0 ==> m == "Walking"
    ensures m == "Car" <==> clickNum < 0 && clickNum % 3 != 0
    ensures 3 <= |m| <= 10 && Utf8.IsAscii(m)
  {
    match CsRemainder(clickNum, 3)
    case 0 => "Walking"
    case 1 => "Running"
    case 2 => "Stationary"
    case _ => "Car"
  }

  /** One click: the message sent and the counter afterwards. */
  datatype Click = Click(message: string, sent: Sent, clickNum: int)

  function MessageToggleClick(writerReady: bool, clickNum: int): (c: Click)
    requires IsInt32(clickNum)
    ensures c.message == ToggleMessage(clickNum) && c.message != ""
    ensures writerReady ==> c.sent.stores == 1 && Framing.ReadLoop(c.sent.bytes) == [Framing.Message(c.message)]
    ensures IsInt32(c.clickNum)
    ensures clickNum < INT32_MAX ==> c.clickNum == clickNum + 1
  {
    var m := ToggleMessage(clickNum);
    Int32IncrementSteps(clickNum);
    Click(m, SendMessage(writerReady, m), Int32Increment(clickNum))
  }

  /** Counting from zero, the toggle repeats Walking, Running, Stationary with
      period 3 and never sends "Car". */
  lemma TogglePeriod(clickNum: int)
    requires 0 <= clickNum <= INT32_MAX - 3
    ensures ToggleMessage(clickNum + 3) == ToggleMessage(clickNum)
    ensures ToggleMessage(clickNum) != "Car"
  {
  }

  /** `clickNum += 1` is unchecked: the click made at counter int.MaxValue
      (click number 2^31, counting from zero) wraps it to int.MinValue, whose
      C# remainder by 3 is -2, so the next click sends "Car". */
  lemma ToggleSendsCarAfterWrap()
    ensures MessageToggleClick(true, INT32_MAX).clickNum == INT32_MIN
    ensures ToggleMessage(INT32_MIN) == "Car"
  {
    Int32IncrementSteps(INT32_MAX);
  }

  // ---------------------------------------------------------------------------
  // RunButton_Click: the device watcher handlers
  // ---------------------------------------------------------------------------

  /** The events the device watcher raises. */
  datatype WatcherEvent =
    | Added(info: DeviceList.Device)
    | Updated(update: DeviceList.DeviceUpdate)
    | Removed(id: string)
    | EnumerationCompleted
    | Stopped

  /** The page state the handlers change: the list and the Run button. */
  datatype Devices = Devices(list: seq<DeviceList.Device>, runEnabled: bool)

  function OnWatcherEvent(v: Devices, e: WatcherEvent): (v': Devices)
    ensures e.Added? ==>
      (e.info.name != "" <==> v'.list == v.list + [e.info]) &&
      (e.info.name == "" <==> v'.list == v.list)
    ensures e.Removed? ==> v'.list == DeviceList.RemoveFirst(v.list, e.id)
    ensures e.Updated? ==> v'.list == DeviceList.UpdateFirst(v.list, e.update)
    ensures e.Stopped? ==> v'.list == [] && v'.runEnabled
    ensures !e.Stopped? ==> v'.runEnabled == v.runEnabled
    ensures e.EnumerationCompleted? ==> v' == v
  {
    match e
    case Added(info) => if info.name != "" then Devices(v.list + [info], v.runEnabled) else v
    case Updated(u) => Devices(DeviceList.UpdateFirst(v.list, u), v.runEnabled)
    case Removed(id) => Devices(DeviceList.RemoveFirst(v.list, id), v.runEnabled)
    case EnumerationCompleted => v
    case Stopped => Devices([], true)
  }

  /** Entries only ever get into the list through Added, so without updates
      every entry has a name. */
  predicate AllNamed(list: seq<DeviceList.Device>) {
    forall i :: 0 <= i < |list| ==> list[i].name != ""
  }

  lemma NamedEntriesStayNamed(v: Devices, e: WatcherEvent)
    requires AllNamed(v.list) && !e.Updated?
    ensures AllNamed(OnWatcherEvent(v, e).list)
  {
    if e.Removed? {
      var i := DeviceList.FirstIndex(v.list, e.id);
      if i.Some? {
        var r := OnWatcherEvent(v, e).list;
        assert r == v.list[..i.value] + v.list[i.value + 1..];
        forall k | 0 <= k < |r| ensures r[k].name != "" {
          if k < i.value { assert r[k] == v.list[k]; } else { assert r[k] == v.list[k + 1]; }
        }
      }
    }
  }

  // ---------------------------------------------------------------------------
  // ConnectButton_Click
  // ---------------------------------------------------------------------------

  /** HResult of ERROR_ELEMENT_NOT_FOUND, raised when no server listens. */
  const ERROR_ELEMENT_NOT_FOUND: nat := 0x8007_0490

  /** An RFCOMM service instance of the avatar UUID on the remote device. */
  datatype Service = Service(hostName: string, serviceName: string)

  /** How StreamSocket.ConnectAsync ended. */
  datatype ConnectAttempt = ConnectSucceeded | ConnectThrew(hresult: nat)

  datatype ConnectOutcome =
    | NoSelection                              // `deviceInfoDisp.Id` on null throws out of the handler
    | NoService                                // status "Could not discover the avatar service…", no socket
    | Connected(service: Service)              // watcher stopped, socket connected, writer created
    | ServerNotRunning(service: Service)       // status "Please verify…", Run enabled again
    | Rethrown(service: Service, hresult: nat) // any other connect failure escapes the handler
  {
    /** Whether the handler got as far as `deviceWatcher.Stop()`. */
    predicate StoppedWatcher() {
      Connected? || ServerNotRunning? || Rethrown?
    }
  }

  function Connect(selected: Option<DeviceList.Device>, services: seq<Service>, attempt: ConnectAttempt): (r: ConnectOutcome)
    ensures r.NoService? <==> selected.Some? && |services| == 0
    ensures r.StoppedWatcher() <==> selected.Some? && |services| > 0
    ensures r.StoppedWatcher() ==> r.service == services[0]
    ensures r.Connected? <==> selected.Some? && |services| > 0 && attempt.ConnectSucceeded?
    ensures r.ServerNotRunning? <==>
      selected.Some? && |services| > 0 && attempt == ConnectThrew(ERROR_ELEMENT_NOT_FOUND)
    ensures r.Rethrown? ==> attempt.ConnectThrew? && r.hresult == attempt.hresult != ERROR_ELEMENT_NOT_FOUND
  {
    if selected.None? then NoSelection
    else if |services| == 0 then NoService
    else
      var chosen := services[0];
      match attempt
      case ConnectSucceeded => Connected(chosen)
      case ConnectThrew(h) =>
        if h == ERROR_ELEMENT_NOT_FOUND then ServerNotRunning(chosen) else Rethrown(chosen, h)
  }

  /** Only the first service the lookup returns is ever used: what follows it
      in the list changes nothing. */
  lemma ConnectUsesFirstService(selected: Option<DeviceList.Device>, first: Service,
                                later: seq<Service>, other: seq<Service>, attempt: ConnectAttempt)
    ensures Connect(selected, [first] + later, attempt) == Connect(selected, [first] + other, attempt)
    ensures selected.Some? ==> Connect(selected, [first] + later, attempt).service == first
  {
  }
}

=== FILE: utf8.dfy ===
/**
  Text as the samples put it on the wire. DataWriter.WriteString and
  DataReader.ReadString use UTF-8 by default; C#'s String.Length counts
  UTF-16 code units. A Dafny `char` is a Unicode scalar value.
 */
module Utf8 {
  import opened Base

  /** True when every character is 7-bit ASCII. */
  predicate IsAscii(s: string) {
    forall i :: 0 <= i < |s| ==> s[i] as int < 0x80
  }

  /** C#'s String.Length: characters outside the Basic Multilingual Plane
      take two UTF-16 code units (a surrogate pair), all others one. */
  function Utf16Length(s: string): (n: nat)
    ensures |s| <= n <= 2 * |s|
    ensures IsAscii(s) ==> n == |s|
  {
    if s == [] then 0
    else (if s[0] as int >= 0x1_0000 then 2 else 1) + Utf16Length(s[1..])
  }

  /** The UTF-16 length never exceeds the UTF-8 byte count, and the two agree
      exactly on ASCII text: every other character takes one code unit but
      two or three bytes, or two code units but four bytes. */
  lemma {:induction false} Utf16BelowUtf8(s: string)
    ensures Utf16Length(s) <= |Encode(s)|
    ensures Utf16Length(s) == |Encode(s)| <==> IsAscii(s)
  {
    if s != [] {
      Utf16BelowUtf8(s[1..]);
      assert IsAscii(s) <==> s[0] as int < 0x80 && IsAscii(s[1..]) by {
        if s[0] as int < 0x80 && IsAscii(s[1..]) {
          forall i | 0 <= i < |s| ensures s[i] as int < 0x80 {
            if i > 0 {
              assert s[i] == s[1..][i - 1];
            }
          }
        }
      }
    }
  }

  predicate IsContinuation(b: byte) {
    0x80 <= b < 0xC0
  }

  /** The UTF-8 bytes of one scalar value (RFC 3629, section 3). */
  function EncodeChar(c: char): (b: seq<byte>)
    ensures 1 <= |b| <= 4
    ensures (|b| == 1) == (c as int < 0x80)
    ensures |b| == 1 ==> b[0] == c as int
    ensures forall i :: 1 <= i < |b| ==> IsContinuation(b[i])
  {
    var cp := c as int;
    if cp < 0x80 then [cp]
    else if cp < 0x800 then [0xC0 + cp / 0x40, 0x80 + cp % 0x40]
    else if cp < 0x1_0000 then [0xE0 + cp / 0x1000, 0x80 + (cp / 0x40) % 0x40, 0x80 + cp % 0x40]
    else [0xF0 + cp / 0x4_0000, 0x80 + (cp / 0x1000) % 0x40, 0x80 + (cp / 0x40) % 0x40, 0x80 + cp % 0x40]
  }

  /** The UTF-8 bytes of a string, character by character. */
  function Encode(s: string): (b: seq<byte>)
    ensures |s| <= |b| <= 4 * |s|
    ensures IsAscii(s) ==> |b| == |s|
  {
    if s == [] then [] else EncodeChar(s[0]) + Encode(s[1..])
  }

  /** Encoding distributes over concatenation. */
  lemma {:induction false} EncodeAppend(s: string, t: string)
    ensures Encode(s + t) == Encode(s) + Encode(t)
  {
    if s == [] {
      assert s + t == t;
    } else {
      assert (s + t)[0] == s[0];
      assert (s + t)[1..] == s[1..] + t;
      EncodeAppend(s[1..], t);
    }
  }

  /** On ASCII text UTF-8 is the identity: byte i is character i. */
  lemma {:induction false} EncodeAscii(s: string)
    requires IsAscii(s)
    ensures |Encode(s)| == |s|
    ensures forall i :: 0 <= i < |s| ==> Encode(s)[i] == s[i] as int
  {
    if s != [] {
      assert IsAscii(s[1..]) by {
        forall i | 0 <= i < |s[1..]| ensures s[1..][i] as int < 0x80 {
          assert s[1..][i] == s[i + 1];
        }
      }
      EncodeAscii(s[1..]);
      assert Encode(s) == [s[0] as int] + Encode(s[1..]);
    }
  }

  predicate IsScalar(cp: int) {
    (0 <= cp < 0xD800) || (0xE000 <= cp < 0x11_0000)
  }

  /** Decodes the first character of `b` and says how many bytes it took;
      None when `b` does not start with a well-formed UTF-8 sequence. */
  function DecodeFirst(b: seq<byte>): (r: Option<(char, nat)>)
    requires |b| > 0
    ensures r.Some? ==> 1 <= r.value.1 <= |b| && b[..r.value.1] == EncodeChar(r.value.0)
  {
    var lead := b[0];
    if lead < 0x80 then
      Some((lead as char, 1))
    else if 0xC2 <= lead < 0xE0 && |b| >= 2 && IsContinuation(b[1]) then
      var cp := (lead as int - 0xC0) * 0x40 + (b[1] as int - 0x80);
      Decoded2(b, cp);
      Some((cp as char, 2))
    else if 0xE0 <= lead < 0xF0 && |b| >= 3 && IsContinuation(b[1]) && IsContinuation(b[2]) then
      var cp := (lead as int - 0xE0) * 0x1000 + (b[1] as int - 0x80) * 0x40 + (b[2] as int - 0x80);
      if 0x800 <= cp && IsScalar(cp) then
        Decoded3(b, cp);
        Some((cp as char, 3))
      else None
    else if 0xF0 <= lead < 0xF5 && |b| >= 4 && IsContinuation(b[1]) && IsContinuation(b[2]) && IsContinuation(b[3]) then
      var cp := (lead as int - 0xF0) * 0x4_0000 + (b[1] as int - 0x80) * 0x1000 + (b[2] as int - 0x80) * 0x40 + (b[3] as int - 0x80);
      if 0x1_0000 <= cp < 0x11_0000 then
        Decoded4(b, cp);
        Some((cp as char, 4))
      else None
    else
      None
  }

  lemma Decoded2(b: seq<byte>, cp: int)
    requires |b| >= 2 && 0xC2 <= b[0] < 0xE0 && IsContinuation(b[1])
    requires cp == (b[0] as int - 0xC0) * 0x40 + (b[1] as int - 0x80)
    ensures 0x80 <= cp < 0x800
    ensures b[..2] == EncodeChar(cp as char)
  {
    assert cp / 0x40 == b[0] - 0xC0;
    assert cp % 0x40 == b[1] - 0x80;
  }

  lemma Decoded3(b: seq<byte>, cp: int)
    requires |b| >= 3 && 0xE0 <= b[0] < 0xF0 && IsContinuation(b[1]) && IsContinuation(b[2])
    requires cp == (b[0] as int - 0xE0) * 0x1000 + (b[1] as int - 0x80) * 0x40 + (b[2] as int - 0x80)
    requires 0x800 <= cp && IsScalar(cp)
    ensures b[..3] == EncodeChar(cp as char)
  {
    assert cp / 0x1000 == b[0] - 0xE0;
    assert cp / 0x40 == (b[0] as int - 0xE0) * 0x40 + (b[1] as int - 0x80);
    assert (cp / 0x40) % 0x40 == b[1] - 0x80;
    assert cp % 0x40 == b[2] - 0x80;
  }

  lemma Decoded4(b: seq<byte>, cp: int)
    requires |b| >= 4 && 0xF0 <= b[0] < 0xF5
    requires IsContinuation(b[1]) && IsContinuation(b[2]) && IsContinuation(b[3])
    requires cp == (b[0] as int - 0xF0) * 0x4_0000 + (b[1] as int - 0x80) * 0x1000 + (b[2] as int - 0x80) * 0x40 + (b[3] as int - 0x80)
    requires 0x1_0000 <= cp < 0x11_0000
    ensures b[..4] == EncodeChar(cp as char)
  {
    assert cp / 0x4_0000 == b[0] - 0xF0;
    assert cp / 0x1000 == (b[0] as int - 0xF0) * 0x40 + (b[1] as int - 0x80);
    assert (cp / 0x1000) % 0x40 == b[1] - 0x80;
    assert cp / 0x40 == ((b[0] as int - 0xF0) * 0x40 + (b[1] as int - 0x80)) * 0x40 + (b[2] as int - 0x80);
    assert (cp / 0x40) % 0x40 == b[2] - 0x80;
    assert cp % 0x40 == b[3] - 0x80;
  }

  /** The decoder recognises the encoder's output for every character,
      whatever follows it. */
  lemma DecodeFirstEncodeChar(c: char, rest: seq<byte>)
    ensures DecodeFirst(EncodeChar(c) + rest) == Some((c, |EncodeChar(c)|))
  {
    var cp := c as int;
    if cp < 0x80 {
    } else if cp < 0x800 {
      Encoded2(c, rest);
    } else if cp < 0x1_0000 {
      Encoded3(c, rest);
    } else {
      Encoded4(c, rest);
    }
  }

  lemma Encoded2(c: char, rest: seq<byte>)
    requires 0x80 <= c as int < 0x800
    ensures DecodeFirst(EncodeChar(c) + rest) == Some((c, 2))
  {
    var cp := c as int;
    var b := EncodeChar(c) + rest;
    assert b[0] == 0xC0 + cp / 0x40 && b[1] == 0x80 + cp % 0x40;
    assert 0xC2 <= b[0] < 0xE0;
    assert (b[0] as int - 0xC0) * 0x40 + (b[1] as int - 0x80) == cp;
  }

  lemma Encoded3(c: char, rest: seq<byte>)
    requires 0x800 <= c as int < 0x1_0000
    ensures DecodeFirst(EncodeChar(c) + rest) == Some((c, 3))
  {
    var cp := c as int;
    var b := EncodeChar(c) + rest;
    assert b[0] == 0xE0 + cp / 0x1000 && b[1] == 0x80 + (cp / 0x40) % 0x40 && b[2] == 0x80 + cp % 0x40;
    assert cp / 0x40 == (cp / 0x1000) * 0x40 + (cp / 0x40) % 0x40;
    assert (b[0] as int - 0xE0) * 0x1000 + (b[1] as int - 0x80) * 0x40 + (b[2] as int - 0x80) == cp;
    assert IsScalar(cp);
  }

  lemma Encoded4(c: char, rest: seq<byte>)
    requires 0x1_0000 <= c as int
    ensures DecodeFirst(EncodeChar(c) + rest) == Some((c, 4))
  {
    var cp := c as int;
    var b := EncodeChar(c) + rest;
    assert b[0] == 0xF0 + cp / 0x4_0000;
    assert b[1] == 0x80 + (cp / 0x1000) % 0x40;
    assert b[2] == 0x80 + (cp / 0x40) % 0x40;
    assert b[3] == 0x80 + cp % 0x40;
    assert cp / 0x1000 == (cp / 0x4_0000) * 0x40 + (cp / 0x1000) % 0x40;
    assert cp / 0x40 == (cp / 0x1000) * 0x40 + (cp / 0x40) % 0x40;
    assert cp == (cp / 0x40) * 0x40 + cp % 0x40;
    assert (b[0] as int - 0xF0) * 0x4_0000 + (b[1] as int - 0x80) * 0x1000 + (b[2] as int - 0x80) * 0x40 + (b[3] as int - 0x80) == cp;
  }

  /** ReadString under UTF-8: the text the bytes spell, or None when they are
      not well-formed UTF-8. */
  function Decode(b: seq<byte>): (r: Option<string>)
    ensures r.Some? ==> Encode(r.value) == b
    decreases |b|
  {
    if b == [] then Some([])
    else match DecodeFirst(b)
      case None => None
      case Some((c, k)) =>
        match Decode(b[k..])
        case None => None
        case Some(s) =>
          DecodeStep(b, c, k, s);
          Some([c] + s)
  }

  /** A decoded first character followed by the decoded rest encodes back
      to the whole input. */
  lemma DecodeStep(b: seq<byte>, c: char, k: nat, s: string)
    requires 1 <= k <= |b| && b[..k] == EncodeChar(c) && Encode(s) == b[k..]
    ensures Encode([c] + s) == b
  {
    assert ([c] + s)[0] == c;
    assert ([c] + s)[1..] == s;
    assert b == b[..k] + b[k..];
  }

  /** Decoding the encoding of any text gives that text back. */
  lemma {:induction false} DecodeEncode(s: string)
    ensures Decode(Encode(s)) == Some(s)
  {
    if s != [] {
      var e := EncodeChar(s[0]);
      DecodeFirstEncodeChar(s[0], Encode(s[1..]));
      assert (e + Encode(s[1..]))[|e|..] == Encode(s[1..]);
      DecodeEncode(s[1..]);
      assert [s[0]] + s[1..] == s;
    }
  }
}
